=== FILE: README.md ===
# DeepCTR sequence layers in Dafny

This project models the sequence layers of DeepCTR's `deepctr/sequence.py`, the
Keras layers that turn a padded, variable-length behaviour sequence into a
fixed-size feature:

- `SequencePoolingLayer` pools a `(batch, T, E)` sequence to `(batch, 1, E)`
  with sum, mean or max. The valid positions come either from a length column
  (`tf.sequence_mask`) or, in masking mode, from the upstream Keras mask.
- `AttentionSequencePoolingLayer` (DIN attention) checks its three input
  shapes in `build`. It fills the padded attention scores with `-2**32 + 1`
  (normalised) or `0` (not normalised), optionally applies softmax, and
  returns the score-weighted sum of the keys.
- `AttentionSequencePoolingLayerv2` applies the same fill, divides by
  `sqrt(E)`, optionally applies softmax, and returns the scores themselves.
- `BiLSTM` stacks bidirectional LSTM levels and adds a residual connection on
  the last `res_layers` of them. It merges the two streams by `fw`, `bw`,
  `sum`, `mul`, `ave`, `concat` or `None` (a pair).

Tensors are nested sequences of exact `real`s. Static shapes are sequences of
known or unknown dimensions. Every `ValueError` the layers raise becomes an
`Err` of a `Result`.

- `tensors.dfy` (module `Tensors`) holds the tensor types and the errors. It
  also holds the meaning of `tf.sequence_mask`, `tf.to_float`, `reduce_sum`
  and column access.
- `sequence_pooling.dfy` (module `SequencePooling`) models the pooling layer.
- `attention.dfy` (module `AttentionPooling`) models both attention layers.
- `bilstm.dfy` (module `BiLstm`) models the BiLSTM.

Each layer is a class whose constructor fixes its configuration. `build`
updates state in place:

- `SequencePoolingLayer.seq_len_max`: a method with `modifies`.
- `BiLSTM.fw_lstm` and `bw_lstm`: a method with a loop.

The pooling and attention calls are pure tensor expressions, so each is a
function with lemmas about it. `BiLSTM.call` rebinds its two streams level by
level. It is a method with a loop, proved equal to the function `Forward`.

The models follow the code on these points:

- When `weight_normalization` is false, the score at a padded position is
  filled with 0, so padded keys never contribute to the attention output.
  This is `UnnormalizedAttentionIgnoresPaddedKeys`.
- In `build`, a Keras `Dimension` comparison with an unknown side is falsy,
  so only two known, different dimensions are refused (`KnownDifferent`).
- In `AttentionSequencePoolingLayerv2`, `sim_type == 'mat'` refers to the
  undefined `NaiveActivationUnit` (`UndefinedScorer`). Any other value
  outside `nn` and `cos` leaves the score unbound (`UnboundScore`).

## Model

| member | source | states |
|---|---|---|
| SequencePooling.ParseMode | deepctr/sequence.py:27-32 | the mode is accepted iff it is sum, mean or max; an accepted name round-trips through `ModeName`; a refused one raises `InvalidPoolingMode` |
| SequencePooling.SequencePoolingLayer.Create | deepctr/sequence.py:27-36 | construction fails iff the mode is invalid; otherwise the new layer holds that mode, `eps = 1e-8` and the masking flag |
| SequencePooling.SequencePoolingLayer.constructor | deepctr/sequence.py:32-36 | the constructor stores mode, eps and supports_masking |
| SequencePooling.SequencePoolingLayer.Build | deepctr/sequence.py:38-42 | in length mode, records the static time dimension `input_shape[0][1]` as `seqLenMax` (an error if the shape has no time axis); in masking mode, leaves the state unchanged |
| SequencePooling.MaxOf | deepctr/sequence.py:66-67 | the reduce-max is an upper bound of every entry and equals one of them |
| SequencePooling.RowLength | deepctr/sequence.py:49-57 | in masking mode the length is the number of true mask entries (the reduce_sum of the float mask); length + eps is never 0 |
| SequencePooling.Pool | deepctr/sequence.py:44-75 | the call fails iff masking mode gets no mask, with `MissingMask`; otherwise the output has shape (B, 1, E) |
| SequencePooling.MaskRow | deepctr/sequence.py:62-64 | tiling the mask over E and multiplying keeps a row whose mask value is 1.0 and zeroes a row whose mask value is 0.0; the shape is kept |
| SequencePooling.ReduceSum | deepctr/sequence.py:69 | one E-wide row; its value over the masked rows is stated by `MaskedSumIsValidSum` |
| SequencePooling.ReduceMax | deepctr/sequence.py:67 | one E-wide row bounding every entry of its column; that it is attained and what it is over the masked rows is stated by `MaxOf` and `MaxPoolingBounds` |
| SequencePooling.PoolRow | deepctr/sequence.py:62-75 | one batch row of the pooled output, E wide; its values are stated by `SumAndMeanPoolValidEntries` and `MaxPoolingBounds` |
| SequencePooling.MaskedSumIsValidSum | deepctr/sequence.py:62-69 | the tiled mask times the values, summed over time, equals the sum over the valid positions |
| SequencePooling.PrefixValidSum | deepctr/sequence.py:56-57 | under a length mask, the valid positions are exactly the first clamp(len, T) |
| SequencePooling.SumPoolingIsPrefixSum | deepctr/sequence.py:53-69 | length-mode sum pooling is the sum of the first `lengths[b]` rows |
| SequencePooling.SumAndMeanPoolValidEntries | deepctr/sequence.py:44-75 | sum is the valid-position sum; mean is that sum / (len + eps), where in masking mode len is the count of true mask entries |
| SequencePooling.ValidSumIgnoresPadding | deepctr/sequence.py:62-64 | the valid-position sum depends only on the valid rows |
| SequencePooling.SumAndMeanIgnorePadding | deepctr/sequence.py:44-75 | sum and mean pooling give the same output for any two inputs that agree on the valid positions |
| SequencePooling.MaxPoolingBounds | deepctr/sequence.py:62-67 | max pooling is at least every valid entry; it is at least 0 when a position is padded; it equals a valid entry or a zeroed padding entry |
| SequencePooling.MaxPoolingSelectsValidWhenPositive | deepctr/sequence.py:62-67 | with positive valid entries, max pooling returns one of them |
| SequencePooling.MaxPoolingSeesZeroedPadding | deepctr/sequence.py:62-67 | with padding present and all valid entries negative, max pooling returns 0 |
| SequencePooling.OutputShape | deepctr/sequence.py:77-81 | the declared shape is (None, 1, last dimension of the sequence input) |
| SequencePooling.PoolConformsToOutputShape | deepctr/sequence.py:44-81 | every result of the call conforms to the declared output shape |
| SequencePooling.SequencePoolingLayer.ComputeOutputShape | deepctr/sequence.py:77-81 | (None, 1, last dimension of the sequence input), which is `input_shape[-1]` in masking mode and `input_shape[0][-1]` in length mode |
| SequencePooling.SequencePoolingLayer.ComputeMask | deepctr/sequence.py:83-84 | no mask is propagated |
| Tensors.SequenceMask | deepctr/sequence.py:56-57 | the mask has one entry per time step; which entries are set is stated by `SequenceMaskCount` |
| Tensors.SequenceMaskCount | deepctr/sequence.py:56-57 | `tf.sequence_mask` keeps exactly clamp(len, T) positions, and position t iff t < clamp(len, T) |
| Tensors.ToFloat | deepctr/sequence.py:50-57 | `tf.to_float` of a mask row: one entry per position, 1.0 where the mask is set and 0.0 elsewhere; its sum is stated by `MaskSumIsCount` |
| Tensors.ValidPositions | deepctr/sequence.py:45-58 | the valid positions of a batch row (the upstream mask in masking mode, `tf.sequence_mask` in length mode; the same choice is made at :150-161), one entry per time step; the values pooled over them are stated by `SumAndMeanPoolValidEntries` and `MaxPoolingBounds` |
| Tensors.MaskSumIsCount | deepctr/sequence.py:50-51 | the sum of the float mask is the number of true entries |
| AttentionPooling.Padding | deepctr/sequence.py:168-171 | the fill value is negative (-2^32+1) under weight normalisation and 0 exactly without it; how it reaches softmax is stated by `NormalizedAttentionWeights` and `UnnormalizedV2Scores` |
| AttentionPooling.MaskedFill | deepctr/sequence.py:168-173 | the filled scores keep the length of the score row |
| AttentionPooling.BuildCheck | deepctr/sequence.py:129-146 | masking mode accepts anything; length mode refuses a list that is not 3 inputs (`WrongInputCount`), then ranks other than 3, 3, 2 (`WrongInputRanks`) |
| AttentionPooling.BuildAcceptsExactly | deepctr/sequence.py:135-142 | with the compared dimensions known, build accepts iff query and keys share E, the query time dimension is 1 and the length column is 1; anything else is `WrongInputDims` |
| AttentionPooling.UnnormalizedIsValidWeightedSum | deepctr/sequence.py:171-178 | the zero-filled scores times the keys equal the sum over valid t of score[t]·keys[t] |
| AttentionPooling.ValidWeightedSumIgnoresPadding | deepctr/sequence.py:171-178 | that weighted sum depends only on the keys at valid positions |
| AttentionPooling.MatMul | deepctr/sequence.py:178 | the weights times the keys give one E-wide row; its value is stated by `UnnormalizedIsValidWeightedSum` |
| AttentionPooling.KnownDifferent | deepctr/sequence.py:139 | two dimensions count as different only when both are known and differ; an unknown side never does |
| AttentionPooling.AttentionRow | deepctr/sequence.py:166-178 | one output row has E entries |
| AttentionPooling.AttentionPool | deepctr/sequence.py:148-180 | the call fails iff masking mode gets no mask, with `MissingMask`; otherwise the output has shape (B, 1, E) |
| AttentionPooling.UnnormalizedAttentionIsValidWeightedSum | deepctr/sequence.py:148-180 | without weight normalisation, output (b, 0, j) is the sum over valid t of score[t]·keys[t][j] |
| AttentionPooling.UnnormalizedAttentionIgnoresPaddedKeys | deepctr/sequence.py:168-178 | without weight normalisation, keys at padded positions never affect the output |
| AttentionPooling.NormalizedAttentionWeights | deepctr/sequence.py:168-178 | with weight normalisation, softmax gets the score at valid positions and -2^32+1 at padded ones; the output is those weights times the keys |
| AttentionPooling.AttentionOutputShape | deepctr/sequence.py:182-183 | the declared shape is (None, 1, query's last dimension) |
| AttentionPooling.AttentionConformsToOutputShape | deepctr/sequence.py:129-183 | after a successful build, every result conforms to the declared shape |
| AttentionPooling.AttentionSequencePoolingLayer.constructor | deepctr/sequence.py:120-127 | the constructor stores hidden_size, activation, weight_normalization and supports_masking |
| AttentionPooling.AttentionSequencePoolingLayer.Build | deepctr/sequence.py:129-146 | masking mode always succeeds; length mode refuses a list that is not 3 inputs with `WrongInputCount`, and every refusal is `WrongInputCount`, `WrongInputRanks` or `WrongInputDims` |
| AttentionPooling.AttentionSequencePoolingLayer.ComputeOutputShape | deepctr/sequence.py:182-183 | (None, 1, the query's last dimension) |
| AttentionPooling.AttentionSequencePoolingLayer.ComputeMask | deepctr/sequence.py:185-186 | no mask is propagated |
| AttentionPooling.ScaledLogits | deepctr/sequence.py:403-414 | the filled and scaled scores keep the length of the score row |
| AttentionPooling.ScoreRowV2 | deepctr/sequence.py:403-418 | one v2 score row keeps the time length |
| AttentionPooling.AttentionScoresV2 | deepctr/sequence.py:368-418 | `mat` fails with `UndefinedScorer`; any other unknown sim_type fails with `UnboundScore`; the call succeeds iff sim_type is nn or cos, with shape (B, 1, T) |
| AttentionPooling.UnnormalizedV2Scores | deepctr/sequence.py:403-414 | without normalisation, score k of row b is score / sqrt(E) when k < keys_length[b], else 0 |
| AttentionPooling.NormalizedV2Scores | deepctr/sequence.py:403-418 | with normalisation, softmax gets score / sqrt(E) at valid positions and (-2^32+1) / sqrt(E) at padded ones |
| AttentionPooling.AttentionV2OutputShape | deepctr/sequence.py:423-426 | the declared shape is (None, 1, keys' time dimension) |
| AttentionPooling.AttentionV2ConformsToOutputShape | deepctr/sequence.py:368-426 | every v2 result conforms to the declared shape |
| AttentionPooling.AttentionSequencePoolingLayerv2.ComputeOutputShape | deepctr/sequence.py:423-426 | (None, 1, the keys' time dimension) |
| AttentionPooling.AttentionSequencePoolingLayerv2.constructor | deepctr/sequence.py:335-342 | the constructor stores hidden_size, activation, weight_normalization and sim_type |
| BiLstm.ParseMergeMode | deepctr/sequence.py:219-224 | the merge mode is accepted iff it is fw, bw, sum, mul, ave, concat or None; it round-trips through `MergeModeName`; a refused one raises `InvalidMergeMode` |
| BiLstm.NumLevels | deepctr/sequence.py:242-255 | the number of iterations of `range(layers)`: layers when it is positive, else 0 |
| BiLstm.HasResidual | deepctr/sequence.py:261 | no level below `layers` has a residual when res_layers ≤ 0, and every level has one when res_layers ≥ layers; which levels get it is stated by `ResidualLevelsAreTheLast` |
| BiLstm.Cells | deepctr/sequence.py:242-246 | one direction holds one cell per level |
| BiLstm.ResidualLevelsAreTheLast | deepctr/sequence.py:255-263 | level i gets the residual iff i ≥ layers − res_layers, which is exactly the last min(res_layers, layers) levels (none when either is ≤ 0) |
| BiLstm.Elementwise | deepctr/sequence.py:262-263 | an elementwise result keeps the shape of its operands |
| BiLstm.ConcatLast | deepctr/sequence.py:275-276 | concatenation keeps the batch and time extents |
| BiLstm.ReverseTime | deepctr/sequence.py:258-259 | reversing in time keeps the batch and time extents |
| BiLstm.ReverseTimeInvolution | deepctr/sequence.py:257-259 | reversing twice is the identity |
| BiLstm.BackwardStreamInForwardOrder | deepctr/sequence.py:257-265 | when a `go_backwards` cell emits the time-reversal of a sequence y, the level passes y on (plus the input on a residual level), i.e. in forward time order |
| BiLstm.Level | deepctr/sequence.py:256-265 | a level without residual never fails; on a residual level it succeeds iff both outputs have the shape of their inputs, and fails with `IncompatibleShapes` otherwise |
| BiLstm.Stack | deepctr/sequence.py:253-268 | the only error of the level loop is `IncompatibleShapes`, and when none of the first n levels is a residual level the stack succeeds |
| BiLstm.Forward | deepctr/sequence.py:251-286 | the call fails only with `IncompatibleShapes`; with no residual level and merge mode fw, bw or None it always succeeds |
| BiLstm.Merge | deepctr/sequence.py:271-284 | concat fails iff the streams differ in batch or time extent, sum/ave/mul fail iff their shapes differ (with `IncompatibleShapes`), and the result is a pair iff the mode is None |
| BiLstm.StackErrorPersists | deepctr/sequence.py:255-265 | once a level fails on a residual shape mismatch, the whole stack fails with that error |
| BiLstm.MergeModesAgree | deepctr/sequence.py:271-284 | on two same-shape streams every merge succeeds; ave is half of sum; concat splits back into the fw and bw outputs; None is the pair (fw, bw) |
| BiLstm.StackShape | deepctr/sequence.py:251-268 | with cells that emit `units` features, every level succeeds and both streams have shape (B, T, units), provided a residual on level 0 adds equal widths |
| BiLstm.MergeShape | deepctr/sequence.py:271-284 | merging two (B, T, w) streams gives (B, T, w), (B, T, 2w) for concat, or a pair of (B, T, w) for None |
| BiLstm.ForwardConformsToOutputShape | deepctr/sequence.py:251-295 | the call's output conforms to the corrected output shape in every merge mode |
| BiLstm.DeclaredOutputShape | deepctr/sequence.py:288-295 | as written: a pair of the input shape iff the mode is None; otherwise the input shape with its last dimension kept, or doubled for concat |
| BiLstm.OutputShapeFor | deepctr/sequence.py:288-295 | corrected: a pair iff the mode is None; equal to the shape as written whenever no level runs or units equals the input width |
| BiLstm.DeclaredOutputShapeMissesUnits | deepctr/sequence.py:288-295 | for an input (B, T, D) with B > 0 and T > 0, at least one level (layers > 0), no residual on level 0 (res_layers < layers) and units ≠ D, the call succeeds and its output does not conform to the shape `compute_output_shape` declares; with no level the declared shape is right (`OutputShapeFor` agrees with it) |
| BiLstm.BiLSTM.constructor | deepctr/sequence.py:226-233 | the constructor stores the configuration, sets supports_masking and leaves both cell lists empty |
| BiLstm.BiLSTM.Create | deepctr/sequence.py:219-233 | construction fails iff the merge mode is invalid; otherwise the new layer holds the configuration, with supports_masking set and both cell lists empty |
| BiLstm.BiLSTM.Build | deepctr/sequence.py:235-249 | build fails iff the input is not rank 3, leaving the cells unchanged; otherwise it leaves one forward and one backward cell per level |
| BiLstm.BiLSTM.Call | deepctr/sequence.py:251-286 | the loop over the levels computes exactly `Forward`: the stacked levels followed by the merge |
| BiLstm.BiLSTM.ComputeOutputShape | deepctr/sequence.py:288-295 | the layer reports the corrected shape: a pair iff the merge mode is None, and the shape as written whenever no level runs or units equals the input width |
| BiLstm.BiLSTM.ComputeMask | deepctr/sequence.py:297-298 | the mask passes through unchanged |

## Left out

- The attention scorers are not modelled: `LocalActivationUnit` (the DIN MLP), the cosine scorer, `K.l2_normalize` and `K.repeat_elements`. Their scores are an input of the model (`scores`, one per key position).
- Softmax is a parameter that only has to keep the vector length. `sqrt(E)` is a parameter `scale` with `scale * scale == E`.
- The LSTM cells (gates, weights, `bias_initializer='ones'`, `unroll`) and dropout are not modelled. A cell is applied through an arbitrary function `run`.
- `get_config` and the `print` in `BiLSTM.compute_output_shape` are left out: they do not affect any tensor.
- `hidden_size` and `activation` are stored but only configure the scorer, which is not modelled.
- Floating point is not modelled. Arithmetic is exact over `real`, and `eps = 1e-8` is the exact rational 1/10^8.
- `SequencePooling.Pool`: max pooling over an empty time axis (T = 0) is excluded by a precondition; TensorFlow returns -inf there.
- The `int` lengths stand for a float length column holding whole-number values. An int32 length column makes length-mode mean pooling raise a `TypeError` at deepctr/sequence.py:72 (`user_behavior_length + self.eps` adds a Python float to an integer tensor); that failure is not modelled. Fractional lengths are not modelled either: `tf.sequence_mask` truncates them at :56, :161 and :405, while :72 divides by the unrounded value.
- TensorFlow broadcasting is not modelled. A residual add or merge of streams with different shapes is `IncompatibleShapes`, where Keras would broadcast or raise.
- The `isinstance(input_shape, list)` check in `AttentionSequencePoolingLayer.build` is modelled only through the count of input shapes.
- The static time dimension must be known when the call runs in length mode (`seqLenMax == Some(T)`). An unknown one is not modelled. In the two attention layers (`AttentionPooling.AttentionPool`, `AttentionPooling.AttentionScoresV2`) the model takes T from the keys; in the source an unknown `keys.get_shape()[1]` makes `tf.sequence_mask` raise at deepctr/sequence.py:161 and :405 (an unknown `Dimension` cannot be converted to a tensor) rather than fall back to the longest length. That failure is not modelled.
- Masking mode models only `mask[-1]`, the keys' mask.
- `BiLstm.StackShape`: the shape results assume cells that keep batch and time and emit `units` features (`CellsEmitUnits`). That is what a Keras LSTM with `return_sequences=True` does.
- BiLstm.BiLSTM.ComputeOutputShape: returns the corrected shape `OutputShapeFor` (width `units` once a level runs), not the input-width shape deepctr/sequence.py:288-295 returns; the shape as written is `DeclaredOutputShape` (see Findings).
- Default arguments are not modelled: `Create` and the constructors take every argument explicitly. The source defaults are `mode='mean'`; `layers=2, res_layers=0, dropout=0.2, merge_mode='ave'`; `hidden_size=(80, 40), activation='sigmoid'`; `weight_normalization=False` for `AttentionSequencePoolingLayer` but `True` for `AttentionSequencePoolingLayerv2`; `sim_type='nn'`.
- AttentionPooling.AttentionScoresV2: requires `scale > 0` with `scale * scale == E`, so an embedding size E = 0 is excluded; there the source divides by `0 ** 0.5 = 0.0` and produces infinities or NaN, which the exact-real model cannot express. The same holds for `AttentionPooling.AttentionSequencePoolingLayerv2.Call`.
- `SequencePooling.SequencePoolingLayer.ComputeOutputShape` takes the shape of the sequence input itself in both modes; picking it out of the whole input shape (`input_shape` or `input_shape[0]`) is left to the caller.
- The third `build` check of `AttentionSequencePoolingLayer` raises a `TypeError` rather than the intended `ValueError`, because its message is formatted with `% (input_shape)`, a list; the model only records that it raises (`WrongInputDims`).
- `AttentionPooling.AttentionSequencePoolingLayer.Call`, `AttentionPooling.AttentionSequencePoolingLayerv2.Call` and `SequencePooling.SequencePoolingLayer.Call` carry no contract of their own: they delegate to `AttentionPool`, `AttentionScoresV2` and `Pool`, whose lemmas state their behaviour.

## Findings

| source | as written | input that shows it | evidently intended | confidence | as-written member | corrected member |
|---|---|---|---|---|---|---|
| deepctr/sequence.py:288-295 | `compute_output_shape` returns the input shape, with the last dimension doubled for concat. | input shape (None, 5, 4), units = 8, layers = 2, res_layers = 0, merge mode `fw`: the declared shape is (None, 5, 4), but the output is (B, 5, 8). | The last dimension is `units` (2·units for concat), as the class documentation says (`(batch_size, timesteps, units)`). | not executed | BiLstm.DeclaredOutputShapeMissesUnits | BiLstm.ForwardConformsToOutputShape |

=== FILE: attention.dfy ===
/**
 * AttentionSequencePoolingLayer (the DIN attention pooling) and its variant
 * AttentionSequencePoolingLayerv2.  Both take one score per key position
 * from a scoring network, overwrite the scores of padded positions with a
 * padding value, and optionally normalise them.  The first layer then
 * returns the weighted sum of the keys; the second layer returns the scores
 * themselves, scaled by 1/sqrt(E).
 *
 * The scoring networks (LocalActivationUnit, the cosine similarity) and
 * softmax are not modelled: their outputs are inputs here.
 */
module AttentionPooling {
  import opened Tensors

  /** `-2 ** 32 + 1` as Python parses it: -(2 ** 32) + 1. */
  const PaddingScore: real := -4294967295.0

  /** The value a padded position's score is replaced with. */
  function Padding(weightNormalization: bool): (r: real)
    ensures weightNormalization ==> r < 0.0
    ensures r == 0.0 <==> !weightNormalization
  {
    if weightNormalization then PaddingScore else 0.0
  }

  /** `tf.where(key_masks, score, paddings)` on one row of scores. */
  function MaskedFill(valid: seq<bool>, score: Vec, weightNormalization: bool): (r: Vec)
    requires |valid| == |score|
    ensures |r| == |score|
  {
    seq(|score|, t requires 0 <= t < |score| => if valid[t] then score[t] else Padding(weightNormalization))
  }

  /** Dot product of two vectors, accumulated from the left. */
  function Dot(a: Vec, b: Vec): real
    requires |a| == |b|
  {
    if |a| == 0 then 0.0 else Dot(a[..|a| - 1], b[..|b| - 1]) + a[|a| - 1] * b[|b| - 1]
  }

  /** `tf.matmul` of a (1, T) row of weights with the (T, E) keys of the same batch row. */
  function MatMul(w: Vec, keys: Mat, e: nat): (r: Vec)
    requires IsMat(keys, |w|, e)
    ensures |r| == e
  {
    seq(e, j requires 0 <= j < e => Dot(w, Column(keys, j)))
  }

  /** Reference definition: the sum over the valid positions t of score[t] * keys[t][j]. */
  function ValidWeightedSum(valid: seq<bool>, score: Vec, keys: Mat, j: nat): real
    requires |valid| == |score| == |keys|
    requires forall t :: 0 <= t < |keys| ==> j < |keys[t]|
  {
    var n := |keys|;
    if n == 0 then 0.0
    else
      ValidWeightedSum(valid[..n - 1], score[..n - 1], keys[..n - 1], j)
        + (if valid[n - 1] then score[n - 1] * keys[n - 1][j] else 0.0)
  }

  /**
   * Without weight normalisation the padding score is 0, so the matmul adds
   * up score[t] * keys[t] over the valid positions only.
   */
  lemma {:induction false} UnnormalizedIsValidWeightedSum(valid: seq<bool>, score: Vec, keys: Mat, e: nat, j: nat)
    requires |valid| == |score| && IsMat(keys, |score|, e) && j < e
    ensures MatMul(MaskedFill(valid, score, false), keys, e)[j] == ValidWeightedSum(valid, score, keys, j)
  {
    var n := |keys|;
    if n > 0 {
      var w := MaskedFill(valid, score, false);
      var keys' := keys[..n - 1];
      assert w[..n - 1] == MaskedFill(valid[..n - 1], score[..n - 1], false);
      assert Column(keys, j)[..n - 1] == Column(keys', j);
      UnnormalizedIsValidWeightedSum(valid[..n - 1], score[..n - 1], keys', e, j);
    }
  }

  /** Two key matrices agree on every valid position. */
  predicate KeysAgreeOnValid(keys: Mat, keys': Mat, valid: seq<bool>) {
    |keys| == |keys'| == |valid| && forall t :: 0 <= t < |valid| && valid[t] ==> keys[t] == keys'[t]
  }

  lemma {:induction false} ValidWeightedSumIgnoresPadding(valid: seq<bool>, score: Vec, keys: Mat, keys': Mat, j: nat)
    requires |score| == |valid| && KeysAgreeOnValid(keys, keys', valid)
    requires forall t :: 0 <= t < |keys| ==> j < |keys[t]| && j < |keys'[t]|
    ensures ValidWeightedSum(valid, score, keys, j) == ValidWeightedSum(valid, score, keys', j)
  {
    var n := |keys|;
    if n > 0 {
      ValidWeightedSumIgnoresPadding(valid[..n - 1], score[..n - 1], keys[..n - 1], keys'[..n - 1], j);
    }
  }

  // ---------------------------------------------------------------------------
  // AttentionSequencePoolingLayer.build

  /**
   * A Keras `Dimension` comparison `a != b` is None, hence falsy, when either
   * side is unknown: only two known, different dimensions count as different.
   */
  function KnownDifferent(a: Dim, b: Dim): (r: bool)
    ensures r ==> a != b
    ensures a.Some? && b.Some? ==> (r <==> a != b)
    ensures a.None? || b.None? ==> !r
  {
    a.Some? && b.Some? && a.value != b.value
  }

  /**
   * `build`: in length mode the input must be a list of three shapes of ranks
   * 3, 3 and 2, query and keys must share the embedding dimension, and the
   * query time dimension and the length column must be 1.  Masking mode
   * checks nothing.
   */
  function BuildCheck(supportsMasking: bool, inputShape: seq<Shape>): (r: Result<()>)
    ensures supportsMasking ==> r.Ok?
    ensures !supportsMasking && |inputShape| != 3 ==> r == Err(WrongInputCount)
    ensures !supportsMasking && |inputShape| == 3 && (|inputShape[0]| != 3 || |inputShape[1]| != 3 || |inputShape[2]| != 2) ==>
              r == Err(WrongInputRanks)
    ensures r.Err? ==> !supportsMasking
  {
    if supportsMasking then Ok(())
    else if |inputShape| != 3 then Err(WrongInputCount)
    else if |inputShape[0]| != 3 || |inputShape[1]| != 3 || |inputShape[2]| != 2 then Err(WrongInputRanks)
    else if KnownDifferent(inputShape[0][2], inputShape[1][2])
         || KnownDifferent(inputShape[0][1], Some(1))
         || KnownDifferent(inputShape[2][1], Some(1))
    then Err(WrongInputDims)
    else Ok(())
  }

  /**
   * With the compared dimensions known, length-mode `build` accepts exactly
   * the shapes (_, 1, E), (_, T, E), (_, 1).
   */
  lemma BuildAcceptsExactly(query: Shape, keys: Shape, keysLength: Shape)
    requires |query| == 3 && |keys| == 3 && |keysLength| == 2
    requires query[1].Some? && query[2].Some? && keys[2].Some? && keysLength[1].Some?
    ensures var r := BuildCheck(false, [query, keys, keysLength]);
            r.Ok? <==> query[2] == keys[2] && query[1] == Some(1) && keysLength[1] == Some(1)
    ensures var r := BuildCheck(false, [query, keys, keysLength]);
            r.Err? ==> r.error == WrongInputDims
  {
  }

  // ---------------------------------------------------------------------------
  // AttentionSequencePoolingLayer.call

  /** The arguments of a call are well shaped: keys (B, T, E), one score row of length T per batch row. */
  predicate WellFormed(supportsMasking: bool, keys: Tensor3, keysLength: seq<int>,
                       mask: Option<seq<seq<bool>>>, scores: seq<Vec>, t: nat, e: nat)
  {
    && IsTensor3(keys, |keys|, t, e)
    && |scores| == |keys| && (forall b :: 0 <= b < |keys| ==> |scores[b]| == t)
    && (!supportsMasking ==> |keysLength| == |keys|)
    && (supportsMasking && mask.Some? ==> IsMask(mask.value, |keys|, t))
  }

  /** softmax may be any function that keeps the length of a row. */
  ghost predicate KeepsLength(softmax: Vec -> Vec) {
    forall s :: |softmax(s)| == |s|
  }

  /** One batch row of the layer's output: the filled, optionally softmaxed, scores times the keys. */
  function AttentionRow(valid: seq<bool>, score: Vec, keys: Mat, weightNormalization: bool, e: nat,
                        softmax: Vec -> Vec): (r: Vec)
    requires |valid| == |score| && IsMat(keys, |score|, e) && KeepsLength(softmax)
    ensures |r| == e
  {
    var filled := MaskedFill(valid, score, weightNormalization);
    var weights := if weightNormalization then softmax(filled) else filled;
    assert |weights| == |score|;
    MatMul(weights, keys, e)
  }

  /**
   * `AttentionSequencePoolingLayer.call`: masking mode without a mask is an
   * error; otherwise row b of the output is the (1, E) product of the filled
   * (and, with weight normalisation, softmaxed) scores with the keys.
   * `scores[b]` is the transposed output of the scoring network for row b.
   */
  function AttentionPool(supportsMasking: bool, weightNormalization: bool, keys: Tensor3, keysLength: seq<int>,
                         mask: Option<seq<seq<bool>>>, scores: seq<Vec>, t: nat, e: nat,
                         softmax: Vec -> Vec): (r: Result<Tensor3>)
    requires WellFormed(supportsMasking, keys, keysLength, mask, scores, t, e)
    requires KeepsLength(softmax)
    ensures r.Err? <==> supportsMasking && mask.None?
    ensures r.Err? ==> r.error == MissingMask
    ensures r.Ok? ==> IsTensor3(r.value, |keys|, 1, e)
  {
    if supportsMasking && mask.None? then Err(MissingMask)
    else
      Ok(seq(|keys|, b requires 0 <= b < |keys| =>
        [AttentionRow(ValidPositions(supportsMasking, keysLength, mask, b, t), scores[b], keys[b], weightNormalization, e, softmax)]))
  }

  /**
   * Without weight normalisation the layer returns, for each row b and
   * coordinate j, the sum over the valid positions t of score[t] * keys[t][j].
   */
  lemma UnnormalizedAttentionIsValidWeightedSum(supportsMasking: bool, keys: Tensor3, keysLength: seq<int>,
                                                mask: Option<seq<seq<bool>>>, scores: seq<Vec>, t: nat, e: nat,
                                                softmax: Vec -> Vec, b: nat, j: nat)
    requires WellFormed(supportsMasking, keys, keysLength, mask, scores, t, e) && KeepsLength(softmax)
    requires !(supportsMasking && mask.None?) && b < |keys| && j < e
    ensures var r := AttentionPool(supportsMasking, false, keys, keysLength, mask, scores, t, e, softmax);
            r.Ok? && r.value[b][0][j] == ValidWeightedSum(ValidPositions(supportsMasking, keysLength, mask, b, t), scores[b], keys[b], j)
  {
    UnnormalizedIsValidWeightedSum(ValidPositions(supportsMasking, keysLength, mask, b, t), scores[b], keys[b], e, j);
  }

  /**
   * Without weight normalisation, keys at padded positions never reach the
   * output: the zero-filled score removes them, whatever they hold.
   */
  lemma UnnormalizedAttentionIgnoresPaddedKeys(supportsMasking: bool, keys: Tensor3, keys': Tensor3, keysLength: seq<int>,
                                               mask: Option<seq<seq<bool>>>, scores: seq<Vec>, t: nat, e: nat,
                                               softmax: Vec -> Vec)
    requires WellFormed(supportsMasking, keys, keysLength, mask, scores, t, e) && KeepsLength(softmax)
    requires WellFormed(supportsMasking, keys', keysLength, mask, scores, t, e)
    requires forall b :: 0 <= b < |keys| && !(supportsMasking && mask.None?) ==>
               KeysAgreeOnValid(keys[b], keys'[b], ValidPositions(supportsMasking, keysLength, mask, b, t))
    ensures AttentionPool(supportsMasking, false, keys, keysLength, mask, scores, t, e, softmax)
            == AttentionPool(supportsMasking, false, keys', keysLength, mask, scores, t, e, softmax)
  {
    var r := AttentionPool(supportsMasking, false, keys, keysLength, mask, scores, t, e, softmax);
    var r' := AttentionPool(supportsMasking, false, keys', keysLength, mask, scores, t, e, softmax);
    if r.Ok? {
      forall b | 0 <= b < |keys|
        ensures r.value[b] == r'.value[b]
      {
        forall j | 0 <= j < e
          ensures r.value[b][0][j] == r'.value[b][0][j]
        {
          var valid := ValidPositions(supportsMasking, keysLength, mask, b, t);
          UnnormalizedAttentionIsValidWeightedSum(supportsMasking, keys, keysLength, mask, scores, t, e, softmax, b, j);
          UnnormalizedAttentionIsValidWeightedSum(supportsMasking, keys', keysLength, mask, scores, t, e, softmax, b, j);
          ValidWeightedSumIgnoresPadding(valid, scores[b], keys[b], keys'[b], j);
        }
        assert r.value[b][0] == r'.value[b][0];
      }
      assert r.value == r'.value;
    }
  }

  /**
   * With weight normalisation, softmax sees the scores at valid positions and
   * -2^32+1 at every padded one; the output is the softmax weights times the keys.
   */
  lemma NormalizedAttentionWeights(supportsMasking: bool, keys: Tensor3, keysLength: seq<int>,
                                   mask: Option<seq<seq<bool>>>, scores: seq<Vec>, t: nat, e: nat,
                                   softmax: Vec -> Vec, b: nat)
    requires WellFormed(supportsMasking, keys, keysLength, mask, scores, t, e) && KeepsLength(softmax)
    requires !(supportsMasking && mask.None?) && b < |keys|
    ensures var r := AttentionPool(supportsMasking, true, keys, keysLength, mask, scores, t, e, softmax);
            var valid := ValidPositions(supportsMasking, keysLength, mask, b, t);
            exists logits: Vec ::
              && |logits| == t
              && (forall k :: 0 <= k < t ==> logits[k] == if valid[k] then scores[b][k] else PaddingScore)
              && r.Ok? && r.value[b] == [MatMul(softmax(logits), keys[b], e)]
  {
    var valid := ValidPositions(supportsMasking, keysLength, mask, b, t);
    var logits := MaskedFill(valid, scores[b], true);
    assert forall k :: 0 <= k < t ==> logits[k] == if valid[k] then scores[b][k] else PaddingScore;
  }

  /** `AttentionSequencePoolingLayer.compute_output_shape`: (None, 1, E) with E the query's last dimension. */
  function AttentionOutputShape(inputShape: seq<Shape>): (s: Shape)
    requires |inputShape| > 0 && |inputShape[0]| > 0
    ensures |s| == 3 && s[1] == Some(1) && s[2] == inputShape[0][|inputShape[0]| - 1]
  {
    [None, Some(1), inputShape[0][|inputShape[0]| - 1]]
  }

  /** A built layer's output conforms to the declared shape: (B, 1, E) with E shared by query and keys. */
  lemma AttentionConformsToOutputShape(supportsMasking: bool, weightNormalization: bool, query: Shape, keyShape: Shape,
                                       lengthShape: Shape, keys: Tensor3, keysLength: seq<int>,
                                       mask: Option<seq<seq<bool>>>, scores: seq<Vec>, t: nat, e: nat,
                                       softmax: Vec -> Vec)
    requires WellFormed(supportsMasking, keys, keysLength, mask, scores, t, e) && KeepsLength(softmax)
    requires BuildCheck(false, [query, keyShape, lengthShape]).Ok? && keyShape[2] == Some(e)
    ensures var r := AttentionPool(supportsMasking, weightNormalization, keys, keysLength, mask, scores, t, e, softmax);
            r.Ok? && query[2].Some? ==> Conforms(r.value, AttentionOutputShape([query, keyShape, lengthShape]))
  {
  }

  // ---------------------------------------------------------------------------
  // AttentionSequencePoolingLayerv2.call

  /**
   * The scores v2 feeds to softmax for one row: the filled scores divided by
   * `scale`, which stands for E ** 0.5.
   */
  function ScaledLogits(valid: seq<bool>, score: Vec, weightNormalization: bool, scale: real): (r: Vec)
    requires |valid| == |score| && scale > 0.0
    ensures |r| == |score|
  {
    var filled := MaskedFill(valid, score, weightNormalization);
    seq(|filled|, k requires 0 <= k < |filled| => filled[k] / scale)
  }

  /** One batch row of v2's output: the scaled logits, softmaxed under weight normalisation. */
  function ScoreRowV2(valid: seq<bool>, score: Vec, weightNormalization: bool, scale: real,
                      softmax: Vec -> Vec): (r: Vec)
    requires |valid| == |score| && scale > 0.0 && KeepsLength(softmax)
    ensures |r| == |score|
  {
    var logits := ScaledLogits(valid, score, weightNormalization, scale);
    if weightNormalization then softmax(logits) else logits
  }

  /**
   * `AttentionSequencePoolingLayerv2.call`.  `sim_type` "nn" and "cos" take
   * their scores from the scoring network or the cosine similarity, given
   * here as `scores` (already transposed to one row of T per batch row);
   * "mat" names a scorer the module never imports; any other value leaves the
   * score unbound.  The result is the (B, 1, T) tensor of scores, not a
   * pooled embedding.
   */
  function AttentionScoresV2(simType: string, weightNormalization: bool, keysLength: seq<int>, scores: seq<Vec>,
                             t: nat, e: nat, scale: real, softmax: Vec -> Vec): (r: Result<Tensor3>)
    requires |scores| == |keysLength| && forall b :: 0 <= b < |scores| ==> |scores[b]| == t
    requires scale > 0.0 && scale * scale == e as real
    requires KeepsLength(softmax)
    ensures simType == "mat" ==> r == Err(UndefinedScorer)
    ensures simType != "nn" && simType != "mat" && simType != "cos" ==> r == Err(UnboundScore)
    ensures r.Ok? <==> simType == "nn" || simType == "cos"
    ensures r.Ok? ==> IsTensor3(r.value, |scores|, 1, t)
  {
    if simType == "mat" then Err(UndefinedScorer)
    else if simType != "nn" && simType != "cos" then Err(UnboundScore)
    else
      Ok(seq(|scores|, b requires 0 <= b < |scores| =>
        [ScoreRowV2(SequenceMask(keysLength[b], t), scores[b], weightNormalization, scale, softmax)]))
  }

  /**
   * v2 without weight normalisation: position k of row b holds score / sqrt(E)
   * when k < keys_length[b], and 0 otherwise.
   */
  lemma UnnormalizedV2Scores(simType: string, keysLength: seq<int>, scores: seq<Vec>, t: nat, e: nat,
                             scale: real, softmax: Vec -> Vec, b: nat, k: nat)
    requires |scores| == |keysLength| && forall b :: 0 <= b < |scores| ==> |scores[b]| == t
    requires scale > 0.0 && scale * scale == e as real && KeepsLength(softmax)
    requires simType == "nn" || simType == "cos"
    requires b < |scores| && k < t
    ensures var r := AttentionScoresV2(simType, false, keysLength, scores, t, e, scale, softmax);
            r.Ok? && r.value[b][0][k] == if k < keysLength[b] then scores[b][k] / scale else 0.0
  {
  }

  /**
   * v2 with weight normalisation: softmax receives score / sqrt(E) at valid
   * positions and (-2^32+1) / sqrt(E) at padded ones.
   */
  lemma NormalizedV2Scores(simType: string, keysLength: seq<int>, scores: seq<Vec>, t: nat, e: nat,
                           scale: real, softmax: Vec -> Vec, b: nat)
    requires |scores| == |keysLength| && forall b :: 0 <= b < |scores| ==> |scores[b]| == t
    requires scale > 0.0 && scale * scale == e as real && KeepsLength(softmax)
    requires simType == "nn" || simType == "cos"
    requires b < |scores|
    ensures var r := AttentionScoresV2(simType, true, keysLength, scores, t, e, scale, softmax);
            exists logits: Vec ::
              && |logits| == t
              && (forall k :: 0 <= k < t ==> logits[k] == if k < keysLength[b] then scores[b][k] / scale else PaddingScore / scale)
              && r.Ok? && r.value[b] == [softmax(logits)]
  {
    var logits := ScaledLogits(SequenceMask(keysLength[b], t), scores[b], true, scale);
    assert forall k :: 0 <= k < t ==> logits[k] == if k < keysLength[b] then scores[b][k] / scale else PaddingScore / scale;
  }

  /** `AttentionSequencePoolingLayerv2.compute_output_shape`: (None, 1, T) with T the keys' time dimension. */
  function AttentionV2OutputShape(inputShape: seq<Shape>): (s: Shape)
    requires |inputShape| > 1 && |inputShape[1]| > 1
    ensures |s| == 3 && s[1] == Some(1) && s[2] == inputShape[1][1]
  {
    [None, Some(1), inputShape[1][1]]
  }

  /** The scores v2 returns conform to the shape it declares. */
  lemma AttentionV2ConformsToOutputShape(simType: string, weightNormalization: bool, query: Shape, keyShape: Shape,
                                         lengthShape: Shape, keysLength: seq<int>, scores: seq<Vec>,
                                         t: nat, e: nat, scale: real, softmax: Vec -> Vec)
    requires |scores| == |keysLength| && forall b :: 0 <= b < |scores| ==> |scores[b]| == t
    requires scale > 0.0 && scale * scale == e as real && KeepsLength(softmax)
    requires |keyShape| == 3 && keyShape[1] == Some(t)
    ensures var r := AttentionScoresV2(simType, weightNormalization, keysLength, scores, t, e, scale, softmax);
            r.Ok? ==> Conforms(r.value, AttentionV2OutputShape([query, keyShape, lengthShape]))
  {
  }

  // ---------------------------------------------------------------------------
  // The layer objects: configuration fixed by the constructor.

  class AttentionSequencePoolingLayer {
    const hiddenSize: seq<nat>
    const activation: string
    const weightNormalization: bool
    const supportsMasking: bool

    constructor (hiddenSize: seq<nat>, activation: string, weightNormalization: bool, supportsMasking: bool)
      ensures this.hiddenSize == hiddenSize && this.activation == activation
      ensures this.weightNormalization == weightNormalization && this.supportsMasking == supportsMasking
    {
      this.hiddenSize := hiddenSize;
      this.activation := activation;
      this.weightNormalization := weightNormalization;
      this.supportsMasking := supportsMasking;
    }

    /** `build`: checks nothing in masking mode, else the three input shapes. */
    function Build(inputShape: seq<Shape>): (r: Result<()>)
      ensures supportsMasking ==> r.Ok?
      ensures r.Err? ==> r.error == WrongInputCount || r.error == WrongInputRanks || r.error == WrongInputDims
      ensures !supportsMasking && |inputShape| != 3 ==> r == Err(WrongInputCount)
    {
      BuildCheck(supportsMasking, inputShape)
    }

    function Call(keys: Tensor3, keysLength: seq<int>, mask: Option<seq<seq<bool>>>, scores: seq<Vec>,
                  t: nat, e: nat, softmax: Vec -> Vec): Result<Tensor3>
      requires WellFormed(supportsMasking, keys, keysLength, mask, scores, t, e)
      requires KeepsLength(softmax)
    {
      AttentionPool(supportsMasking, weightNormalization, keys, keysLength, mask, scores, t, e, softmax)
    }

    /** `compute_output_shape`: (None, 1, E) with E the query's last dimension. */
    function ComputeOutputShape(inputShape: seq<Shape>): (s: Shape)
      requires |inputShape| > 0 && |inputShape[0]| > 0
      ensures s == [None, Some(1), inputShape[0][|inputShape[0]| - 1]]
    {
      AttentionOutputShape(inputShape)
    }

    /** `compute_mask`: the pooled output carries no mask. */
    function ComputeMask(mask: Option<seq<seq<bool>>>): (r: Option<seq<seq<bool>>>)
      ensures r.None?
    {
      None
    }
  }

  class AttentionSequencePoolingLayerv2 {
    const hiddenSize: seq<nat>
    const activation: string
    const weightNormalization: bool
    const simType: string

    constructor (hiddenSize: seq<nat>, activation: string, weightNormalization: bool, simType: string)
      ensures this.hiddenSize == hiddenSize && this.activation == activation
      ensures this.weightNormalization == weightNormalization && this.simType == simType
    {
      this.hiddenSize := hiddenSize;
      this.activation := activation;
      this.weightNormalization := weightNormalization;
      this.simType := simType;
    }

    function Call(keysLength: seq<int>, scores: seq<Vec>, t: nat, e: nat, scale: real, softmax: Vec -> Vec): Result<Tensor3>
      requires |scores| == |keysLength| && forall b :: 0 <= b < |scores| ==> |scores[b]| == t
      requires scale > 0.0 && scale * scale == e as real
      requires KeepsLength(softmax)
    {
      AttentionScoresV2(simType, weightNormalization, keysLength, scores, t, e, scale, softmax)
    }

    /** `compute_output_shape`: (None, 1, T) with T the keys' time dimension. */
    function ComputeOutputShape(inputShape: seq<Shape>): (s: Shape)
      requires |inputShape| > 1 && |inputShape[1]| > 1
      ensures s == [None, Some(1), inputShape[1][1]]
    {
      AttentionV2OutputShape(inputShape)
    }
  }
}

=== FILE: bilstm.dfy ===
/**
 * BiLSTM: a stack of bidirectional recurrent levels with residual
 * connections on the last `res_layers` levels and a configurable merge of
 * the forward and backward streams.
 *
 * The LSTM cells themselves (weights, gates, dropout) are not modelled: a
 * cell is applied through an arbitrary function `run`, so every property
 * below holds whatever the cells compute.  A backward cell (`go_backwards`)
 * returns its outputs in reversed time order; the layer reverses them back.
 */
module BiLstm {
  import opened Tensors

  // ---------------------------------------------------------------------------
  // Configuration

  /** The merge modes; `Unmerged` is Python's `None`. */
  datatype MergeMode = Fw | Bw | Sum | Mul | Ave | Concat | Unmerged

  function MergeModeName(mode: MergeMode): Option<string> {
    match mode
    case Fw => Some("fw")
    case Bw => Some("bw")
    case Sum => Some("sum")
    case Mul => Some("mul")
    case Ave => Some("ave")
    case Concat => Some("concat")
    case Unmerged => None
  }

  /** Constructor validation: any merge mode outside {fw, bw, sum, mul, ave, concat, None} is refused. */
  function ParseMergeMode(name: Option<string>): (r: Result<MergeMode>)
    ensures r.Ok? <==> name in [Some("fw"), Some("bw"), Some("sum"), Some("mul"), Some("ave"), Some("concat"), None]
    ensures r.Ok? ==> MergeModeName(r.value) == name
    ensures r.Err? ==> r.error == InvalidMergeMode
  {
    match name
    case None => Ok(Unmerged)
    case Some(s) =>
      if s == "fw" then Ok(Fw)
      else if s == "bw" then Ok(Bw)
      else if s == "sum" then Ok(Sum)
      else if s == "mul" then Ok(Mul)
      else if s == "ave" then Ok(Ave)
      else if s == "concat" then Ok(Concat)
      else Err(InvalidMergeMode)
  }

  /** One recurrent cell as `build` creates it; `level` stands for the identity of its weights. */
  datatype LstmCell = LstmCell(units: nat, dropout: real, goBackwards: bool, level: nat)

  /** Applying a cell to a (B, T, D) tensor; left uninterpreted. */
  type Recurrence = (LstmCell, Tensor3) -> Tensor3

  /** `len(range(layers))`. */
  function NumLevels(layers: int): (n: nat)
    ensures n >= layers && (n == 0 || n == layers)
  {
    if layers < 0 then 0 else layers
  }

  /** The cells of one direction after `build` has appended n of them. */
  function Cells(units: nat, dropout: real, goBackwards: bool, n: nat): (cs: seq<LstmCell>)
    ensures |cs| == n
  {
    seq(n, i requires 0 <= i < n => LstmCell(units, dropout, goBackwards, i))
  }

  // ---------------------------------------------------------------------------
  // The residual schedule

  /** Level i receives the residual connection iff `i >= layers - res_layers`. */
  predicate HasResidual(layers: int, resLayers: int, i: int)
    ensures resLayers <= 0 && i < layers ==> !HasResidual(layers, resLayers, i)
    ensures resLayers >= layers && i >= 0 ==> HasResidual(layers, resLayers, i)
  {
    i >= layers - resLayers
  }

  /** For each level of `range(layers)`, whether it receives the residual connection. */
  function ResidualSchedule(layers: int, resLayers: int): (s: seq<bool>)
    ensures |s| == NumLevels(layers)
  {
    seq(NumLevels(layers), i => HasResidual(layers, resLayers, i))
  }

  function Min(a: int, b: int): int {
    if a <= b then a else b
  }

  lemma {:induction false} ThresholdCount(n: nat, c: int)
    ensures Count(seq(n, i => i >= c)) == n - Clamp(c, n)
  {
    if n > 0 {
      assert seq(n, i => i >= c)[..n - 1] == seq(n - 1, i => i >= c);
      ThresholdCount(n - 1, c);
    }
  }

  /**
   * The residual connection is added on exactly the last min(res_layers, layers)
   * levels (a negative count meaning none).
   */
  lemma ResidualLevelsAreTheLast(layers: int, resLayers: int)
    ensures var k := Min(NumLevels(resLayers), NumLevels(layers));
            && Count(ResidualSchedule(layers, resLayers)) == k
            && forall i :: 0 <= i < NumLevels(layers) ==> (ResidualSchedule(layers, resLayers)[i] <==> i >= NumLevels(layers) - k)
  {
    var n := NumLevels(layers);
    assert ResidualSchedule(layers, resLayers) == seq(n, i => i >= layers - resLayers);
    ThresholdCount(n, layers - resLayers);
  }

  // ---------------------------------------------------------------------------
  // Tensor operations used by the layer

  predicate SameShape(x: Tensor3, y: Tensor3) {
    |x| == |y| &&
    forall b :: 0 <= b < |x| ==> |x[b]| == |y[b]| && forall t :: 0 <= t < |x[b]| ==> |x[b][t]| == |y[b][t]|
  }

  /** Same batch and time extents; the feature widths may differ. */
  predicate SameFrame(x: Tensor3, y: Tensor3) {
    |x| == |y| && forall b :: 0 <= b < |x| ==> |x[b]| == |y[b]|
  }

  datatype Op = Plus | Times | Average

  function Apply(op: Op, a: real, c: real): real {
    match op
    case Plus => a + c
    case Times => a * c
    case Average => (a + c) / 2.0
  }

  /** `x + y`, `x * y` or `(x + y) / 2` on two tensors of the same shape. */
  function Elementwise(op: Op, x: Tensor3, y: Tensor3): (z: Tensor3)
    requires SameShape(x, y)
    ensures SameShape(z, x)
  {
    seq(|x|, b requires 0 <= b < |x| =>
      seq(|x[b]|, t requires 0 <= t < |x[b]| =>
        seq(|x[b][t]|, k requires 0 <= k < |x[b][t]| => Apply(op, x[b][t][k], y[b][t][k]))))
  }

  /** `K.concatenate([x, y])`: feature vectors joined along the last axis. */
  function ConcatLast(x: Tensor3, y: Tensor3): (z: Tensor3)
    requires SameFrame(x, y)
    ensures SameFrame(z, x)
  {
    seq(|x|, b requires 0 <= b < |x| => seq(|x[b]|, t requires 0 <= t < |x[b]| => x[b][t] + y[b][t]))
  }

  /** `K.reverse(x, 1)`: every batch row read backwards in time. */
  function ReverseTime(x: Tensor3): (r: Tensor3)
    ensures SameFrame(r, x)
  {
    seq(|x|, b requires 0 <= b < |x| => seq(|x[b]|, t requires 0 <= t < |x[b]| => x[b][|x[b]| - 1 - t]))
  }

  /** Reversing twice restores the tensor. */
  lemma ReverseTimeInvolution(x: Tensor3)
    ensures ReverseTime(ReverseTime(x)) == x
  {
    var r := ReverseTime(ReverseTime(x));
    forall b | 0 <= b < |x|
      ensures r[b] == x[b]
    {
      assert |r[b]| == |x[b]|;
      forall t | 0 <= t < |x[b]|
        ensures r[b][t] == x[b][t]
      {
        assert r[b][t] == ReverseTime(x)[b][|x[b]| - 1 - t];
      }
    }
  }

  // ---------------------------------------------------------------------------
  // The call: levels, then merge

  /**
   * One level: the forward cell on the forward stream, the backward cell on
   * the backward stream with its output re-reversed, and, on a residual
   * level, each stream's input added to its output.
   */
  function Level(fwCell: LstmCell, bwCell: LstmCell, residual: bool, run: Recurrence,
                 inFw: Tensor3, inBw: Tensor3): (r: Result<(Tensor3, Tensor3)>)
    ensures !residual ==> r.Ok?
    ensures r.Err? ==> r.error == IncompatibleShapes
    ensures residual ==> (r.Ok? <==> SameShape(run(fwCell, inFw), inFw) && SameShape(ReverseTime(run(bwCell, inBw)), inBw))
  {
    var outFw := run(fwCell, inFw);
    var outBw := ReverseTime(run(bwCell, inBw));
    if !residual then Ok((outFw, outBw))
    else if SameShape(outFw, inFw) && SameShape(outBw, inBw) then
      Ok((Elementwise(Plus, outFw, inFw), Elementwise(Plus, outBw, inBw)))
    else Err(IncompatibleShapes)
  }

  /** The forward and backward streams after the first n levels. */
  function Stack(fw: seq<LstmCell>, bw: seq<LstmCell>, layers: int, resLayers: int, run: Recurrence,
                 x: Tensor3, n: nat): (r: Result<(Tensor3, Tensor3)>)
    requires n <= |fw| && n <= |bw|
    ensures r.Err? ==> r.error == IncompatibleShapes
    ensures (forall i :: 0 <= i < n ==> !HasResidual(layers, resLayers, i)) ==> r.Ok?
  {
    if n == 0 then Ok((x, x))
    else
      match Stack(fw, bw, layers, resLayers, run, x, n - 1)
      case Err(e) => Err(e)
      case Ok(streams) => Level(fw[n - 1], bw[n - 1], HasResidual(layers, resLayers, n - 1), run, streams.0, streams.1)
  }

  /** The layer's output: a single tensor, or the pair of streams when merge_mode is None. */
  datatype BiOutput = Single(out: Tensor3) | Pair(fw: Tensor3, bw: Tensor3)

  /** The merge of the final forward and backward streams. */
  function Merge(mode: MergeMode, fw: Tensor3, bw: Tensor3): (r: Result<BiOutput>)
    ensures r.Err? <==> (mode == Concat && !SameFrame(fw, bw)) || ((mode == Sum || mode == Ave || mode == Mul) && !SameShape(fw, bw))
    ensures r.Err? ==> r.error == IncompatibleShapes
    ensures r.Ok? ==> (r.value.Pair? <==> mode == Unmerged)
  {
    match mode
    case Fw => Ok(Single(fw))
    case Bw => Ok(Single(bw))
    case Concat => if SameFrame(fw, bw) then Ok(Single(ConcatLast(fw, bw))) else Err(IncompatibleShapes)
    case Sum => if SameShape(fw, bw) then Ok(Single(Elementwise(Plus, fw, bw))) else Err(IncompatibleShapes)
    case Ave => if SameShape(fw, bw) then Ok(Single(Elementwise(Average, fw, bw))) else Err(IncompatibleShapes)
    case Mul => if SameShape(fw, bw) then Ok(Single(Elementwise(Times, fw, bw))) else Err(IncompatibleShapes)
    case Unmerged => Ok(Pair(fw, bw))
  }

  /** `BiLSTM.call` as a function of the built cells. */
  function Forward(fw: seq<LstmCell>, bw: seq<LstmCell>, layers: int, resLayers: int, mode: MergeMode,
                   run: Recurrence, x: Tensor3): (r: Result<BiOutput>)
    requires |fw| == |bw|
    ensures r.Err? ==> r.error == IncompatibleShapes
    ensures (forall i :: 0 <= i < |fw| ==> !HasResidual(layers, resLayers, i)) && (mode == Fw || mode == Bw || mode == Unmerged) ==> r.Ok?
  {
    match Stack(fw, bw, layers, resLayers, run, x, |fw|)
    case Err(e) => Err(e)
    case Ok(streams) => Merge(mode, streams.0, streams.1)
  }

  /**
   * A `go_backwards` cell emits its sequence in reversed time order; when its
   * output is the reversal of some forward-ordered sequence y, the level hands
   * y itself to the next level (without a residual, or y plus the input with one).
   */
  lemma BackwardStreamInForwardOrder(fwCell: LstmCell, bwCell: LstmCell, residual: bool, run: Recurrence,
                                     inFw: Tensor3, inBw: Tensor3, y: Tensor3)
    requires bwCell.goBackwards && run(bwCell, inBw) == ReverseTime(y)
    requires residual ==> SameShape(run(fwCell, inFw), inFw) && SameShape(y, inBw)
    ensures var r := Level(fwCell, bwCell, residual, run, inFw, inBw);
            r.Ok? && r.value.1 == if residual then Elementwise(Plus, y, inBw) else y
  {
    ReverseTimeInvolution(y);
  }

  /** Once a level fails, every later level count fails with the same error. */
  lemma {:induction false} StackErrorPersists(fw: seq<LstmCell>, bw: seq<LstmCell>, layers: int, resLayers: int,
                                              run: Recurrence, x: Tensor3, k: nat, n: nat)
    requires k <= n <= |fw| && n <= |bw|
    requires Stack(fw, bw, layers, resLayers, run, x, k).Err?
    ensures Stack(fw, bw, layers, resLayers, run, x, n) == Stack(fw, bw, layers, resLayers, run, x, k)
  {
    if n > k {
      StackErrorPersists(fw, bw, layers, resLayers, run, x, k, n - 1);
    }
  }

  /**
   * The merge modes agree with one another on two streams of one shape:
   * `ave` is half of `sum`, `concat` splits back into the `fw` and `bw`
   * outputs, and None returns exactly the two streams `fw` and `bw` select.
   */
  lemma MergeModesAgree(fw: Tensor3, bw: Tensor3)
    requires SameShape(fw, bw)
    ensures Merge(Fw, fw, bw) == Ok(Single(fw)) && Merge(Bw, fw, bw) == Ok(Single(bw))
    ensures Merge(Unmerged, fw, bw) == Ok(Pair(Merge(Fw, fw, bw).value.out, Merge(Bw, fw, bw).value.out))
    ensures var s := Merge(Sum, fw, bw); var a := Merge(Ave, fw, bw);
            && s.Ok? && a.Ok? && SameShape(a.value.out, fw)
            && forall b, t, k :: 0 <= b < |fw| && 0 <= t < |fw[b]| && 0 <= k < |fw[b][t]| ==>
                 a.value.out[b][t][k] == s.value.out[b][t][k] / 2.0
    ensures var c := Merge(Concat, fw, bw);
            && c.Ok? && SameFrame(c.value.out, fw)
            && forall b, t :: 0 <= b < |fw| && 0 <= t < |fw[b]| ==>
                 c.value.out[b][t][..|fw[b][t]|] == fw[b][t] && c.value.out[b][t][|fw[b][t]|..] == bw[b][t]
  {
  }

  // ---------------------------------------------------------------------------
  // Output shapes

  datatype OutputShape = OneShape(s: Shape) | TwoShapes(fw: Shape, bw: Shape)

  predicate OutputConforms(o: BiOutput, s: OutputShape) {
    match (o, s)
    case (Single(x), OneShape(sh)) => Conforms(x, sh)
    case (Pair(x, y), TwoShapes(sx, sy)) => Conforms(x, sx) && Conforms(y, sy)
    case _ => false
  }

  /** `compute_output_shape` as written: the input shape, its last dimension doubled for concat, twice for None. */
  function DeclaredOutputShape(mode: MergeMode, inputShape: Shape): (r: OutputShape)
    requires |inputShape| > 0 && inputShape[|inputShape| - 1].Some?
    ensures r.TwoShapes? <==> mode == Unmerged
    ensures r.TwoShapes? ==> r.fw == inputShape && r.bw == inputShape
    ensures r.OneShape? ==> |r.s| == |inputShape| && r.s[..|inputShape| - 1] == inputShape[..|inputShape| - 1]
    ensures r.OneShape? ==> r.s[|inputShape| - 1] == Some(if mode == Concat then 2 * inputShape[|inputShape| - 1].value
                                                          else inputShape[|inputShape| - 1].value)
  {
    var last := |inputShape| - 1;
    if mode == Unmerged then TwoShapes(inputShape, inputShape)
    else if mode == Concat then OneShape(inputShape[..last] + [Some(inputShape[last].value * 2)])
    else OneShape(inputShape)
  }

  /**
   * The corrected output shape: the feature width is `units` once at least one
   * level has run (the input width when none has), doubled for concat.
   */
  function OutputShapeFor(mode: MergeMode, layers: int, units: nat, inputShape: Shape): (r: OutputShape)
    requires |inputShape| > 0 && inputShape[|inputShape| - 1].Some?
    ensures r.TwoShapes? <==> mode == Unmerged
    ensures (layers <= 0 || units == inputShape[|inputShape| - 1].value) ==> r == DeclaredOutputShape(mode, inputShape)
  {
    var last := |inputShape| - 1;
    assert inputShape[..last] + [inputShape[last]] == inputShape;
    var width := if layers > 0 then units else inputShape[last].value;
    var s := inputShape[..last] + [Some(width)];
    if mode == Unmerged then TwoShapes(s, s)
    else if mode == Concat then OneShape(inputShape[..last] + [Some(2 * width)])
    else OneShape(s)
  }

  function FrameOf(x: Tensor3): seq<nat> {
    seq(|x|, b requires 0 <= b < |x| => |x[b]|)
  }

  predicate UniformWidth(x: Tensor3, w: nat) {
    forall b, t :: 0 <= b < |x| && 0 <= t < |x[b]| ==> |x[b][t]| == w
  }

  /** The one fact the shape results assume of the cells: a cell keeps batch and time and emits `units` features. */
  ghost predicate CellsEmitUnits(run: Recurrence) {
    forall c: LstmCell, x: Tensor3 :: FrameOf(run(c, x)) == FrameOf(x) && UniformWidth(run(c, x), c.units)
  }

  lemma CellOutputShape(run: Recurrence, c: LstmCell, x: Tensor3, B: nat, T: nat, D: nat)
    requires CellsEmitUnits(run) && IsTensor3(x, B, T, D)
    ensures IsTensor3(run(c, x), B, T, c.units)
    ensures IsTensor3(ReverseTime(run(c, x)), B, T, c.units)
  {
    var y := run(c, x);
    assert FrameOf(y) == FrameOf(x);
    assert |y| == |FrameOf(y)| == |FrameOf(x)| == B;
    forall b | 0 <= b < B
      ensures |y[b]| == T
    {
      assert FrameOf(y)[b] == FrameOf(x)[b];
    }
  }

  /**
   * With cells that emit `units` features, the first n levels succeed and
   * leave both streams of shape (B, T, units) (the input shape when n is 0),
   * provided a residual on level 0 adds tensors of one width.
   */
  lemma {:induction false} StackShape(units: nat, dropout: real, layers: int, resLayers: int, run: Recurrence,
                                      x: Tensor3, B: nat, T: nat, D: nat, n: nat)
    requires CellsEmitUnits(run) && IsTensor3(x, B, T, D)
    requires n <= NumLevels(layers)
    requires n > 0 && HasResidual(layers, resLayers, 0) ==> units == D
    ensures var s := Stack(Cells(units, dropout, false, NumLevels(layers)), Cells(units, dropout, true, NumLevels(layers)),
                           layers, resLayers, run, x, n);
            var w := if n == 0 then D else units;
            s.Ok? && IsTensor3(s.value.0, B, T, w) && IsTensor3(s.value.1, B, T, w)
  {
    if n > 0 {
      var fw := Cells(units, dropout, false, NumLevels(layers));
      var bw := Cells(units, dropout, true, NumLevels(layers));
      StackShape(units, dropout, layers, resLayers, run, x, B, T, D, n - 1);
      var prev := Stack(fw, bw, layers, resLayers, run, x, n - 1).value;
      var w := if n - 1 == 0 then D else units;
      CellOutputShape(run, fw[n - 1], prev.0, B, T, w);
      CellOutputShape(run, bw[n - 1], prev.1, B, T, w);
      if HasResidual(layers, resLayers, n - 1) {
        assert HasResidual(layers, resLayers, 0) || n - 1 > 0;
        assert w == units;
      }
    }
  }

  /** Merging two (B, T, w) streams gives (B, T, w), (B, T, 2w) for concat, or the pair. */
  lemma MergeShape(mode: MergeMode, fw: Tensor3, bw: Tensor3, B: nat, T: nat, w: nat)
    requires IsTensor3(fw, B, T, w) && IsTensor3(bw, B, T, w)
    ensures var out := Merge(mode, fw, bw);
            var s := [None, Some(T), Some(w)];
            && out.Ok?
            && (mode == Unmerged ==> OutputConforms(out.value, TwoShapes(s, s)))
            && (mode == Concat ==> OutputConforms(out.value, OneShape([None, Some(T), Some(2 * w)])))
            && (mode != Unmerged && mode != Concat ==> OutputConforms(out.value, OneShape(s)))
  {
  }

  /**
   * The layer's output conforms to the corrected output shape, in every merge
   * mode, for an input of shape (B, T, D).
   */
  lemma ForwardConformsToOutputShape(units: nat, dropout: real, layers: int, resLayers: int, mode: MergeMode,
                                     run: Recurrence, x: Tensor3, B: nat, T: nat, D: nat)
    requires CellsEmitUnits(run) && IsTensor3(x, B, T, D)
    requires layers > 0 && HasResidual(layers, resLayers, 0) ==> units == D
    ensures var out := Forward(Cells(units, dropout, false, NumLevels(layers)), Cells(units, dropout, true, NumLevels(layers)),
                               layers, resLayers, mode, run, x);
            out.Ok? && OutputConforms(out.value, OutputShapeFor(mode, layers, units, [None, Some(T), Some(D)]))
  {
    var fw := Cells(units, dropout, false, NumLevels(layers));
    var bw := Cells(units, dropout, true, NumLevels(layers));
    StackShape(units, dropout, layers, resLayers, run, x, B, T, D, NumLevels(layers));
    var streams := Stack(fw, bw, layers, resLayers, run, x, NumLevels(layers)).value;
    var w := if layers > 0 then units else D;
    MergeShape(mode, streams.0, streams.1, B, T, w);
    assert [None, Some(T), Some(D)][..2] == [None, Some(T)];
  }

  /**
   * `compute_output_shape` as written reports the input width: for any input
   * with a position and units != D, the shape it declares is not the shape
   * the call returns.
   */
  lemma DeclaredOutputShapeMissesUnits(units: nat, dropout: real, layers: int, resLayers: int, mode: MergeMode,
                                       run: Recurrence, x: Tensor3, B: nat, T: nat, D: nat)
    requires CellsEmitUnits(run) && IsTensor3(x, B, T, D)
    requires B > 0 && T > 0 && layers > 0 && units != D
    requires !HasResidual(layers, resLayers, 0)
    ensures var out := Forward(Cells(units, dropout, false, NumLevels(layers)), Cells(units, dropout, true, NumLevels(layers)),
                               layers, resLayers, mode, run, x);
            out.Ok? && !OutputConforms(out.value, DeclaredOutputShape(mode, [None, Some(T), Some(D)]))
  {
    var fw := Cells(units, dropout, false, NumLevels(layers));
    var bw := Cells(units, dropout, true, NumLevels(layers));
    StackShape(units, dropout, layers, resLayers, run, x, B, T, D, NumLevels(layers));
    var streams := Stack(fw, bw, layers, resLayers, run, x, NumLevels(layers)).value;
    assert |streams.0[0][0]| == units && |streams.1[0][0]| == units;
    var out := Merge(mode, streams.0, streams.1);
    match mode
    case Concat =>
      assert |out.value.out[0][0]| == 2 * units;
    case Sum =>
      assert |out.value.out[0][0]| == units;
    case Ave =>
      assert |out.value.out[0][0]| == units;
    case Mul =>
      assert |out.value.out[0][0]| == units;
    case Fw =>
    case Bw =>
    case Unmerged =>
  }

  // ---------------------------------------------------------------------------
  // The layer object

  class BiLSTM {
    const units: nat
    const layers: int
    const resLayers: int
    const dropout: real
    const mergeMode: MergeMode
    const supportsMasking: bool
    var fwLstm: seq<LstmCell>
    var bwLstm: seq<LstmCell>

    /** `build` has run: one forward and one backward cell per level. */
    ghost predicate Built()
      reads this
    {
      fwLstm == Cells(units, dropout, false, NumLevels(layers)) && bwLstm == Cells(units, dropout, true, NumLevels(layers))
    }

    constructor (units: nat, layers: int, resLayers: int, dropout: real, mergeMode: MergeMode)
      ensures this.units == units && this.layers == layers && this.resLayers == resLayers
      ensures this.dropout == dropout && this.mergeMode == mergeMode
      ensures supportsMasking && fwLstm == [] && bwLstm == []
    {
      this.units := units;
      this.layers := layers;
      this.resLayers := resLayers;
      this.dropout := dropout;
      this.mergeMode := mergeMode;
      this.supportsMasking := true;
      this.fwLstm := [];
      this.bwLstm := [];
    }

    /** `BiLSTM(units, layers, res_layers, dropout, merge_mode)`: raises for an invalid merge mode. */
    static method Create(units: nat, layers: int, resLayers: int, dropout: real, mergeMode: Option<string>)
      returns (r: Result<BiLSTM>)
      ensures r.Err? <==> ParseMergeMode(mergeMode).Err?
      ensures r.Err? ==> r.error == InvalidMergeMode
      ensures r.Ok? ==> fresh(r.value) && MergeModeName(r.value.mergeMode) == mergeMode
      ensures r.Ok? ==> r.value.units == units && r.value.layers == layers && r.value.resLayers == resLayers
      ensures r.Ok? ==> r.value.dropout == dropout && r.value.supportsMasking && r.value.fwLstm == [] && r.value.bwLstm == []
    {
      var parsed := ParseMergeMode(mergeMode);
      if parsed.Err? {
        return Err(parsed.error);
      }
      var layer := new BiLSTM(units, layers, resLayers, dropout, parsed.value);
      r := Ok(layer);
    }

    /** `build`: refuses a non-rank-3 input, else creates one forward and one backward cell per level. */
    method Build(inputShape: Shape) returns (r: Result<()>)
      modifies this
      ensures r.Err? <==> |inputShape| != 3
      ensures r.Err? ==> r.error == WrongInputRank && fwLstm == old(fwLstm) && bwLstm == old(bwLstm)
      ensures r.Ok? ==> Built()
    {
      if |inputShape| != 3 {
        return Err(WrongInputRank);
      }
      fwLstm := [];
      bwLstm := [];
      var i := 0;
      while i < layers
        invariant 0 <= i <= NumLevels(layers)
        invariant fwLstm == Cells(units, dropout, false, i)
        invariant bwLstm == Cells(units, dropout, true, i)
      {
        fwLstm := fwLstm + [LstmCell(units, dropout, false, i)];
        bwLstm := bwLstm + [LstmCell(units, dropout, true, i)];
        i := i + 1;
      }
      r := Ok(());
    }

    /**
     * `call`: runs the levels in order, rebinding the two streams and adding
     * the residual on the last `res_layers` levels, then merges the streams.
     */
    method Call(inputs: Tensor3, run: Recurrence) returns (r: Result<BiOutput>)
      requires Built()
      ensures r == Forward(fwLstm, bwLstm, layers, resLayers, mergeMode, run, inputs)
    {
      var inputFw, inputBw := inputs, inputs;
      var i := 0;
      while i < layers
        invariant 0 <= i <= |fwLstm|
        invariant Stack(fwLstm, bwLstm, layers, resLayers, run, inputs, i) == Ok((inputFw, inputBw))
      {
        var outputFw := run(fwLstm[i], inputFw);
        var outputBw := ReverseTime(run(bwLstm[i], inputBw));
        if i >= layers - resLayers {
          if !SameShape(outputFw, inputFw) || !SameShape(outputBw, inputBw) {
            StackErrorPersists(fwLstm, bwLstm, layers, resLayers, run, inputs, i + 1, |fwLstm|);
            return Err(IncompatibleShapes);
          }
          outputFw := Elementwise(Plus, outputFw, inputFw);
          outputBw := Elementwise(Plus, outputBw, inputBw);
        }
        inputFw, inputBw := outputFw, outputBw;
        i := i + 1;
      }
      r := Merge(mergeMode, inputFw, inputBw);
    }

    /**
     * `compute_output_shape`, corrected to report the width `units` the cells
     * emit; it agrees with the shape as written when no level runs or when
     * `units` equals the input width.
     */
    function ComputeOutputShape(inputShape: Shape): (r: OutputShape)
      reads this
      requires |inputShape| > 0 && inputShape[|inputShape| - 1].Some?
      ensures r.TwoShapes? <==> mergeMode == Unmerged
      ensures (layers <= 0 || units == inputShape[|inputShape| - 1].value) ==> r == DeclaredOutputShape(mergeMode, inputShape)
    {
      OutputShapeFor(mergeMode, layers, units, inputShape)
    }

    /** `compute_mask`: the mask passes through unchanged. */
    function ComputeMask(mask: Option<seq<seq<bool>>>): (r: Option<seq<seq<bool>>>)
      ensures r == mask
    {
      mask
    }
  }
}

=== FILE: sequence_pooling.dfy ===
/**
 * SequencePoolingLayer: reduces a right-padded batch of embedding sequences of
 * shape (batch, T, E) to one embedding per row, shape (batch, 1, E), by sum,
 * mean or max over the positions a validity mask keeps.  The mask comes from
 * an explicit length column (length mode) or from an upstream Keras mask
 * (masking mode, `supports_masking=True`).
 */
module SequencePooling {
  import opened Tensors

  datatype PoolingMode = Sum | Mean | Max

  /** The `eps` added to the length before dividing in mean mode, as an exact positive number. */
  const Eps: real := 0.00000001

  function ModeName(mode: PoolingMode): string {
    match mode
    case Sum => "sum"
    case Mean => "mean"
    case Max => "max"
  }

  /** Constructor validation: every mode other than "sum", "mean" and "max" is refused. */
  function ParseMode(name: string): (r: Result<PoolingMode>)
    ensures r.Ok? <==> name == "sum" || name == "mean" || name == "max"
    ensures r.Ok? ==> ModeName(r.value) == name
    ensures r.Err? ==> r.error == InvalidPoolingMode
  {
    if name == "sum" then Ok(Sum)
    else if name == "mean" then Ok(Mean)
    else if name == "max" then Ok(Max)
    else Err(InvalidPoolingMode)
  }

  /** One row of `seq * tf.tile(mask, [1, 1, E])`: every embedding coordinate scaled by its position's mask value. */
  function MaskRow(x: Mat, mask: Vec, e: nat): (m: Mat)
    requires IsMat(x, |mask|, e)
    ensures IsMat(m, |mask|, e)
    ensures forall t :: 0 <= t < |mask| && mask[t] == 1.0 ==> m[t] == x[t]
    ensures forall t, j :: 0 <= t < |mask| && mask[t] == 0.0 && 0 <= j < e ==> m[t][j] == 0.0
  {
    seq(|x|, t requires 0 <= t < |x| => seq(e, j requires 0 <= j < e => x[t][j] * mask[t]))
  }

  /** `tf.reduce_sum` over the time axis of one row. */
  function ReduceSum(x: Mat, e: nat): (r: Vec)
    requires IsMat(x, |x|, e)
    ensures |r| == e
  {
    seq(e, j requires 0 <= j < e => SumOf(Column(x, j)))
  }

  /** The largest entry of a non-empty vector: an upper bound that is attained. */
  function MaxOf(s: Vec): (r: real)
    requires |s| > 0
    ensures forall t :: 0 <= t < |s| ==> s[t] <= r
    ensures exists t :: 0 <= t < |s| && s[t] == r
  {
    if |s| == 1 then s[0]
    else
      var init := s[..|s| - 1];
      var m := MaxOf(init);
      assert forall t :: 0 <= t < |init| ==> init[t] == s[t];
      if s[|s| - 1] > m then s[|s| - 1] else m
  }

  /** `tf.reduce_max` over the time axis of one row. */
  function ReduceMax(x: Mat, e: nat): (r: Vec)
    requires |x| > 0 && IsMat(x, |x|, e)
    ensures |r| == e
    ensures forall t, j :: 0 <= t < |x| && 0 <= j < e ==> x[t][j] <= r[j]
  {
    assert forall t, j :: 0 <= t < |x| && 0 <= j < e ==> Column(x, j)[t] == x[t][j];
    seq(e, j requires 0 <= j < e => MaxOf(Column(x, j)))
  }

  /** One batch row of the pooled output, before the singleton time axis is put back. */
  function PoolRow(mode: PoolingMode, x: Mat, mask: Vec, len: real, e: nat): (r: Vec)
    requires IsMat(x, |mask|, e)
    requires mode == Max ==> |mask| > 0
    requires len + Eps != 0.0
    ensures |r| == e
  {
    var masked := MaskRow(x, mask, e);
    match mode
    case Max => ReduceMax(masked, e)
    case Sum => ReduceSum(masked, e)
    case Mean =>
      var s := ReduceSum(masked, e);
      seq(e, j requires 0 <= j < e => s[j] / (len + Eps))
  }

  /** The arguments of a call are well shaped: values (B, T, E), one length per row, masks (B, T). */
  predicate WellFormed(supportsMasking: bool, values: Tensor3, lengths: seq<int>,
                       mask: Option<seq<seq<bool>>>, t: nat, e: nat)
  {
    && IsTensor3(values, |values|, t, e)
    && (!supportsMasking ==> |lengths| == |values|)
    && (supportsMasking && mask.Some? ==> IsMask(mask.value, |values|, t))
  }

  lemma IntPlusEpsNonzero(n: int)
    ensures n as real + Eps != 0.0
  {
    if n < 0 {
      assert n as real <= -1.0;
    }
  }

  /**
   * The length row b is divided by in mean mode: the length column, or in
   * masking mode `tf.reduce_sum` of the float mask, which is the number of
   * valid positions.
   */
  function RowLength(supportsMasking: bool, lengths: seq<int>, mask: Option<seq<seq<bool>>>, b: nat): (len: real)
    requires supportsMasking ==> mask.Some? && b < |mask.value|
    requires !supportsMasking ==> b < |lengths|
    ensures supportsMasking ==> len == Count(mask.value[b]) as real
    ensures len + Eps != 0.0
  {
    if supportsMasking then
      MaskSumIsCount(mask.value[b]);
      IntPlusEpsNonzero(Count(mask.value[b]));
      SumOf(ToFloat(mask.value[b]))
    else
      IntPlusEpsNonzero(lengths[b]);
      lengths[b] as real
  }

  /**
   * `SequencePoolingLayer.call`: masking mode without a mask is an error;
   * otherwise every row is pooled and comes back with shape (1, E).
   */
  function Pool(mode: PoolingMode, supportsMasking: bool, values: Tensor3, lengths: seq<int>,
                mask: Option<seq<seq<bool>>>, t: nat, e: nat): (r: Result<Tensor3>)
    requires WellFormed(supportsMasking, values, lengths, mask, t, e)
    requires mode == Max ==> t > 0
    ensures r.Err? <==> supportsMasking && mask.None?
    ensures r.Err? ==> r.error == MissingMask
    ensures r.Ok? ==> IsTensor3(r.value, |values|, 1, e)
  {
    if supportsMasking && mask.None? then Err(MissingMask)
    else
      Ok(seq(|values|, b requires 0 <= b < |values| =>
        [PoolRow(mode, values[b], ToFloat(ValidPositions(supportsMasking, lengths, mask, b, t)),
                 RowLength(supportsMasking, lengths, mask, b), e)]))
  }

  /** Reference definition: the sum of coordinate j over the valid positions only. */
  function ValidSum(x: Mat, valid: seq<bool>, j: nat): real
    requires |valid| == |x| && forall t :: 0 <= t < |x| ==> j < |x[t]|
  {
    if |x| == 0 then 0.0
    else
      ValidSum(x[..|x| - 1], valid[..|valid| - 1], j) + (if valid[|x| - 1] then x[|x| - 1][j] else 0.0)
  }

  /** Multiplying by the float mask and summing over time adds up exactly the valid entries. */
  lemma {:induction false} MaskedSumIsValidSum(x: Mat, valid: seq<bool>, e: nat, j: nat)
    requires IsMat(x, |valid|, e) && j < e
    ensures ReduceSum(MaskRow(x, ToFloat(valid), e), e)[j] == ValidSum(x, valid, j)
  {
    var n := |x|;
    if n > 0 {
      var m := MaskRow(x, ToFloat(valid), e);
      var m' := MaskRow(x[..n - 1], ToFloat(valid[..n - 1]), e);
      assert m[..n - 1] == m';
      assert Column(m, j)[..n - 1] == Column(m', j);
      MaskedSumIsValidSum(x[..n - 1], valid[..n - 1], e, j);
      assert ReduceSum(m', e)[j] == SumOf(Column(m', j));
    }
  }

  /** Under a length mask, the valid sum is the plain sum of the first Clamp(len, T) rows. */
  lemma {:induction false} PrefixValidSum(x: Mat, len: int, j: nat)
    requires forall t :: 0 <= t < |x| ==> j < |x[t]|
    ensures ValidSum(x, SequenceMask(len, |x|), j) == SumOf(Column(x[..Clamp(len, |x|)], j))
  {
    var n := |x|;
    if n > 0 {
      var init := x[..n - 1];
      assert SequenceMask(len, n)[..n - 1] == SequenceMask(len, n - 1);
      PrefixValidSum(init, len, j);
      var c := Clamp(len, n - 1);
      assert init[..c] == x[..c];
      if n - 1 < len {
        assert Clamp(len, n) == n && c == n - 1;
        assert Column(x[..n], j)[..n - 1] == Column(x[..n - 1], j);
      } else {
        assert Clamp(len, n) == c;
      }
    }
  }

  /**
   * Sum pooling in length mode: output (b, 0, j) is the sum of coordinate j
   * over the first `lengths[b]` positions of row b (clipped to [0, T]).
   */
  lemma SumPoolingIsPrefixSum(values: Tensor3, lengths: seq<int>, t: nat, e: nat, b: nat, j: nat)
    requires WellFormed(false, values, lengths, None, t, e)
    requires b < |values| && j < e
    ensures var r := Pool(Sum, false, values, lengths, None, t, e);
            r.Ok? && r.value[b][0][j] == SumOf(Column(values[b][..Clamp(lengths[b], t)], j))
  {
    var valid := SequenceMask(lengths[b], t);
    MaskedSumIsValidSum(values[b], valid, e, j);
    PrefixValidSum(values[b], lengths[b], j);
  }

  /**
   * Sum and mean pooling in either mode: output (b, 0, j) is the sum of
   * coordinate j over the valid positions, and in mean mode that sum divided
   * by (length + eps), where in masking mode the length is the number of true
   * mask entries.
   */
  lemma SumAndMeanPoolValidEntries(mode: PoolingMode, supportsMasking: bool, values: Tensor3, lengths: seq<int>,
                                   mask: Option<seq<seq<bool>>>, t: nat, e: nat, b: nat, j: nat)
    requires WellFormed(supportsMasking, values, lengths, mask, t, e)
    requires mode != Max && !(supportsMasking && mask.None?)
    requires b < |values| && j < e
    ensures var r := Pool(mode, supportsMasking, values, lengths, mask, t, e);
            var s := ValidSum(values[b], ValidPositions(supportsMasking, lengths, mask, b, t), j);
            var len := if supportsMasking then Count(mask.value[b]) else lengths[b];
            && r.Ok?
            && (mode == Sum ==> r.value[b][0][j] == s)
            && (mode == Mean ==> r.value[b][0][j] == s / (len as real + Eps))
  {
    MaskedSumIsValidSum(values[b], ValidPositions(supportsMasking, lengths, mask, b, t), e, j);
  }

  /** Reference: two rows agree on every position the mask keeps. */
  predicate AgreeOnValid(x: Mat, y: Mat, valid: seq<bool>) {
    |x| == |y| == |valid| && forall t :: 0 <= t < |valid| && valid[t] ==> x[t] == y[t]
  }

  lemma {:induction false} ValidSumIgnoresPadding(x: Mat, y: Mat, valid: seq<bool>, j: nat)
    requires AgreeOnValid(x, y, valid)
    requires forall t :: 0 <= t < |x| ==> j < |x[t]| && j < |y[t]|
    ensures ValidSum(x, valid, j) == ValidSum(y, valid, j)
  {
    var n := |x|;
    if n > 0 {
      ValidSumIgnoresPadding(x[..n - 1], y[..n - 1], valid[..n - 1], j);
    }
  }

  /**
   * Padding never matters for sum or mean pooling: two inputs that agree on
   * every valid position pool to the same output, whatever the padded
   * positions hold.
   */
  lemma SumAndMeanIgnorePadding(mode: PoolingMode, supportsMasking: bool, values: Tensor3, values': Tensor3,
                                lengths: seq<int>, mask: Option<seq<seq<bool>>>, t: nat, e: nat)
    requires WellFormed(supportsMasking, values, lengths, mask, t, e)
    requires WellFormed(supportsMasking, values', lengths, mask, t, e)
    requires mode != Max && |values| == |values'|
    requires forall b :: 0 <= b < |values| && !(supportsMasking && mask.None?) ==>
               AgreeOnValid(values[b], values'[b], ValidPositions(supportsMasking, lengths, mask, b, t))
    ensures Pool(mode, supportsMasking, values, lengths, mask, t, e) == Pool(mode, supportsMasking, values', lengths, mask, t, e)
  {
    var r := Pool(mode, supportsMasking, values, lengths, mask, t, e);
    var r' := Pool(mode, supportsMasking, values', lengths, mask, t, e);
    if r.Ok? {
      forall b | 0 <= b < |values|
        ensures r.value[b] == r'.value[b]
      {
        forall j | 0 <= j < e
          ensures r.value[b][0][j] == r'.value[b][0][j]
        {
          var valid := ValidPositions(supportsMasking, lengths, mask, b, t);
          SumAndMeanPoolValidEntries(mode, supportsMasking, values, lengths, mask, t, e, b, j);
          SumAndMeanPoolValidEntries(mode, supportsMasking, values', lengths, mask, t, e, b, j);
          ValidSumIgnoresPadding(values[b], values'[b], valid, j);
        }
        assert r.value[b][0] == r'.value[b][0];
      }
      assert r.value == r'.value;
    }
  }

  /**
   * Max pooling: output (b, 0, j) is at least every valid entry of coordinate
   * j, and at least 0 when some position is padded, because padded positions
   * are zeroed rather than dropped; it is one of those values.
   */
  lemma MaxPoolingBounds(supportsMasking: bool, values: Tensor3, lengths: seq<int>,
                         mask: Option<seq<seq<bool>>>, t: nat, e: nat, b: nat, j: nat)
    requires WellFormed(supportsMasking, values, lengths, mask, t, e)
    requires t > 0 && !(supportsMasking && mask.None?)
    requires b < |values| && j < e
    ensures var r := Pool(Max, supportsMasking, values, lengths, mask, t, e);
            var v := ValidPositions(supportsMasking, lengths, mask, b, t);
            && r.Ok?
            && (forall k :: 0 <= k < t && v[k] ==> values[b][k][j] <= r.value[b][0][j])
            && (forall k :: 0 <= k < t && !v[k] ==> 0.0 <= r.value[b][0][j])
            && (exists k :: 0 <= k < t && r.value[b][0][j] == if v[k] then values[b][k][j] else 0.0)
  {
    var v := ValidPositions(supportsMasking, lengths, mask, b, t);
    var c := Column(MaskRow(values[b], ToFloat(v), e), j);
    assert forall k :: 0 <= k < t ==> c[k] == if v[k] then values[b][k][j] else 0.0;
  }

  /** When every valid entry is positive and some position is valid, the zeroed padding is never selected. */
  lemma MaxPoolingSelectsValidWhenPositive(supportsMasking: bool, values: Tensor3, lengths: seq<int>,
                                           mask: Option<seq<seq<bool>>>, t: nat, e: nat, b: nat, j: nat)
    requires WellFormed(supportsMasking, values, lengths, mask, t, e)
    requires t > 0 && !(supportsMasking && mask.None?)
    requires b < |values| && j < e
    requires exists k :: 0 <= k < t && ValidPositions(supportsMasking, lengths, mask, b, t)[k]
    requires forall k :: 0 <= k < t && ValidPositions(supportsMasking, lengths, mask, b, t)[k] ==> values[b][k][j] > 0.0
    ensures var r := Pool(Max, supportsMasking, values, lengths, mask, t, e);
            r.Ok? && exists k :: 0 <= k < t && ValidPositions(supportsMasking, lengths, mask, b, t)[k] && r.value[b][0][j] == values[b][k][j]
  {
    MaxPoolingBounds(supportsMasking, values, lengths, mask, t, e, b, j);
  }

  /** The accepted limitation: with a padded position and only negative valid entries, max pooling returns 0. */
  lemma MaxPoolingSeesZeroedPadding(supportsMasking: bool, values: Tensor3, lengths: seq<int>,
                                    mask: Option<seq<seq<bool>>>, t: nat, e: nat, b: nat, j: nat)
    requires WellFormed(supportsMasking, values, lengths, mask, t, e)
    requires t > 0 && !(supportsMasking && mask.None?)
    requires b < |values| && j < e
    requires exists k :: 0 <= k < t && !ValidPositions(supportsMasking, lengths, mask, b, t)[k]
    requires forall k :: 0 <= k < t && ValidPositions(supportsMasking, lengths, mask, b, t)[k] ==> values[b][k][j] < 0.0
    ensures var r := Pool(Max, supportsMasking, values, lengths, mask, t, e);
            r.Ok? && r.value[b][0][j] == 0.0
  {
    MaxPoolingBounds(supportsMasking, values, lengths, mask, t, e, b, j);
  }

  /** The static output shape: (None, 1, E) with E the last dimension of the sequence input. */
  function OutputShape(seqShape: Shape): (s: Shape)
    requires |seqShape| > 0
    ensures |s| == 3 && s[1] == Some(1) && s[2] == seqShape[|seqShape| - 1]
  {
    [None, Some(1), seqShape[|seqShape| - 1]]
  }

  /** What the call returns conforms to the shape `compute_output_shape` declares, in either mode and every pooling mode. */
  lemma PoolConformsToOutputShape(mode: PoolingMode, supportsMasking: bool, values: Tensor3, lengths: seq<int>,
                                  mask: Option<seq<seq<bool>>>, t: nat, e: nat)
    requires WellFormed(supportsMasking, values, lengths, mask, t, e)
    requires mode == Max ==> t > 0
    ensures var r := Pool(mode, supportsMasking, values, lengths, mask, t, e);
            r.Ok? ==> Conforms(r.value, OutputShape([None, Some(t), Some(e)]))
  {
  }

  /**
   * The layer object: `mode`, `eps` and `supports_masking` are fixed by the
   * constructor; `build` records the static time dimension in `seqLenMax`.
   */
  class SequencePoolingLayer {
    const mode: PoolingMode
    const eps: real
    const supportsMasking: bool
    var seqLenMax: Option<nat>

    constructor (mode: PoolingMode, supportsMasking: bool)
      ensures this.mode == mode && this.supportsMasking == supportsMasking
      ensures eps == Eps && seqLenMax == None
    {
      this.mode := mode;
      this.eps := Eps;
      this.supportsMasking := supportsMasking;
      this.seqLenMax := None;
    }

    /** `SequencePoolingLayer(mode, supports_masking)`: raises for a mode outside {sum, mean, max}. */
    static method Create(mode: string, supportsMasking: bool) returns (r: Result<SequencePoolingLayer>)
      ensures r.Err? <==> mode != "sum" && mode != "mean" && mode != "max"
      ensures r.Err? ==> r.error == InvalidPoolingMode
      ensures r.Ok? ==> fresh(r.value) && ModeName(r.value.mode) == mode && r.value.eps == Eps
      ensures r.Ok? ==> r.value.supportsMasking == supportsMasking && r.value.seqLenMax == None
    {
      var parsed := ParseMode(mode);
      if parsed.Err? {
        return Err(parsed.error);
      }
      var layer := new SequencePoolingLayer(parsed.value, supportsMasking);
      r := Ok(layer);
    }

    /**
     * `build`: in length mode, reads the time dimension of the first input
     * shape (raising if it has none); in masking mode, records nothing.
     */
    method Build(inputShape: seq<Shape>) returns (r: Result<()>)
      modifies this
      ensures !supportsMasking && (|inputShape| == 0 || |inputShape[0]| < 2) ==> r == Err(MissingTimeDimension) && seqLenMax == old(seqLenMax)
      ensures !supportsMasking && |inputShape| > 0 && |inputShape[0]| >= 2 ==> r == Ok(()) && seqLenMax == inputShape[0][1]
      ensures supportsMasking ==> r == Ok(()) && seqLenMax == old(seqLenMax)
    {
      if !supportsMasking {
        if |inputShape| == 0 || |inputShape[0]| < 2 {
          return Err(MissingTimeDimension);
        }
        seqLenMax := inputShape[0][1];
      }
      r := Ok(());
    }

    /** `call`, on a layer built for sequences of length t. */
    function Call(values: Tensor3, lengths: seq<int>, mask: Option<seq<seq<bool>>>, t: nat, e: nat): Result<Tensor3>
      reads this
      requires !supportsMasking ==> seqLenMax == Some(t)
      requires WellFormed(supportsMasking, values, lengths, mask, t, e)
      requires mode == Max ==> t > 0
    {
      Pool(mode, supportsMasking, values, lengths, mask, t, e)
    }

    /**
     * `compute_output_shape`, given the shape of the sequence input (the whole
     * input shape in masking mode, its first element in length mode).
     */
    function ComputeOutputShape(seqShape: Shape): (s: Shape)
      requires |seqShape| > 0
      ensures s == [None, Some(1), seqShape[|seqShape| - 1]]
    {
      OutputShape(seqShape)
    }

    /** `compute_mask`: pooling consumes the time axis, so no mask is propagated. */
    function ComputeMask(mask: Option<seq<seq<bool>>>): (r: Option<seq<seq<bool>>>)
      ensures r.None?
    {
      None
    }
  }
}

=== FILE: tensors.dfy ===
/**
 * Tensors as nested sequences of exact numbers, the errors the layers raise,
 * and the meaning of the handful of TensorFlow operations the sequence layers
 * are built from (`tf.sequence_mask`, `tf.to_float`, `tf.reduce_sum`, column
 * access), each stated as a small pure function.
 */
module Tensors {

  datatype Option<+T> = None | Some(value: T)

  /** The conditions under which a layer raises instead of returning a tensor. */
  datatype LayerError =
    | InvalidPoolingMode      // SequencePoolingLayer: mode not in {sum, mean, max}
    | MissingMask             // supports_masking=True and the call receives no mask
    | MissingTimeDimension    // SequencePoolingLayer.build: the input shape has no time axis
    | WrongInputCount         // AttentionSequencePoolingLayer.build: not a list of 3 inputs
    | WrongInputRanks         // ... ranks are not 3, 3 and 2
    | WrongInputDims          // ... embedding, query-time or length-column dimension is off; Python raises
                              // a TypeError here, since the message's `% (input_shape)` formats a list
    | InvalidMergeMode        // BiLSTM: merge_mode not in {fw, bw, sum, mul, ave, concat, None}
    | WrongInputRank          // BiLSTM.build: the input is not rank 3
    | UndefinedScorer         // AttentionSequencePoolingLayerv2 with sim_type 'mat'
    | UnboundScore            // AttentionSequencePoolingLayerv2 with an unknown sim_type
    | IncompatibleShapes      // an elementwise operation on tensors of different shapes

  datatype Result<+T> = Ok(value: T) | Err(error: LayerError)

  /** A vector of exact numbers; a matrix is a sequence of rows; a rank-3 tensor is a batch of matrices. */
  type Vec = seq<real>
  type Mat = seq<Vec>
  type Tensor3 = seq<Mat>

  /** A static (build-time) shape: each dimension is known or unknown (`None` in Keras). */
  type Dim = Option<nat>
  type Shape = seq<Dim>

  predicate IsMat(x: Mat, t: nat, e: nat) {
    |x| == t && forall i :: 0 <= i < t ==> |x[i]| == e
  }

  predicate IsTensor3(x: Tensor3, b: nat, t: nat, e: nat) {
    |x| == b && forall i :: 0 <= i < b ==> IsMat(x[i], t, e)
  }

  /** A concrete tensor agrees with a static rank-3 shape: every known dimension matches. */
  predicate Conforms(x: Tensor3, s: Shape) {
    && |s| == 3
    && (s[0].Some? ==> |x| == s[0].value)
    && (forall b :: 0 <= b < |x| ==> s[1].Some? ==> |x[b]| == s[1].value)
    && (forall b, t :: 0 <= b < |x| && 0 <= t < |x[b]| ==> s[2].Some? ==> |x[b][t]| == s[2].value)
  }

  /** A batch of boolean masks of shape (b, t). */
  predicate IsMask(m: seq<seq<bool>>, b: nat, t: nat) {
    |m| == b && forall i :: 0 <= i < b ==> |m[i]| == t
  }

  /** Sum of a vector, accumulated from the left. */
  function SumOf(s: Vec): real {
    if |s| == 0 then 0.0 else SumOf(s[..|s| - 1]) + s[|s| - 1]
  }

  /** Number of true entries of a mask row. */
  function Count(m: seq<bool>): (n: nat)
    ensures n <= |m|
  {
    if |m| == 0 then 0 else Count(m[..|m| - 1]) + (if m[|m| - 1] then 1 else 0)
  }

  /** Column `j` of a matrix: the values of one embedding coordinate along the time axis. */
  function Column(x: Mat, j: nat): (c: Vec)
    requires forall t :: 0 <= t < |x| ==> j < |x[t]|
    ensures |c| == |x|
  {
    seq(|x|, t requires 0 <= t < |x| => x[t][j])
  }

  /** A length clipped to the window [0, maxlen]. */
  function Clamp(len: int, maxlen: nat): nat {
    if len <= 0 then 0 else if len >= maxlen then maxlen else len
  }

  /** `tf.sequence_mask` for one row of lengths: position t is valid iff t < len. */
  function SequenceMask(len: int, maxlen: nat): (m: seq<bool>)
    ensures |m| == maxlen
  {
    seq(maxlen, t => t < len)
  }

  /** `tf.to_float` of a boolean mask row. */
  function ToFloat(m: seq<bool>): (f: Vec)
    ensures |f| == |m|
    ensures forall t :: 0 <= t < |m| ==> (m[t] ==> f[t] == 1.0) && (!m[t] ==> f[t] == 0.0)
  {
    seq(|m|, t requires 0 <= t < |m| => if m[t] then 1.0 else 0.0)
  }

  /**
   * The valid positions of batch row b: the upstream Keras mask in masking
   * mode, `tf.sequence_mask(lengths[b], T)` in length mode.
   */
  function ValidPositions(supportsMasking: bool, lengths: seq<int>, mask: Option<seq<seq<bool>>>, b: nat, t: nat): (v: seq<bool>)
    requires supportsMasking ==> mask.Some? && b < |mask.value| && |mask.value[b]| == t
    requires !supportsMasking ==> b < |lengths|
    ensures |v| == t
  {
    if supportsMasking then mask.value[b] else SequenceMask(lengths[b], t)
  }

  /** A length mask is a prefix: it keeps exactly min(max(len, 0), maxlen) positions, all at the front. */
  lemma {:induction false} SequenceMaskCount(len: int, maxlen: nat)
    ensures Count(SequenceMask(len, maxlen)) == Clamp(len, maxlen)
    ensures forall t :: 0 <= t < maxlen ==> (SequenceMask(len, maxlen)[t] <==> t < Clamp(len, maxlen))
  {
    if maxlen > 0 {
      var m := SequenceMask(len, maxlen);
      assert m[..maxlen - 1] == SequenceMask(len, maxlen - 1);
      SequenceMaskCount(len, maxlen - 1);
    }
  }

  /** Summing the float mask (`tf.reduce_sum(tf.to_float(mask))`) counts its true entries. */
  lemma {:induction false} MaskSumIsCount(m: seq<bool>)
    ensures SumOf(ToFloat(m)) == Count(m) as real
  {
    if |m| > 0 {
      var f := ToFloat(m);
      assert f[..|f| - 1] == ToFloat(m[..|m| - 1]);
      MaskSumIsCount(m[..|m| - 1]);
    }
  }
}
